=== FILE: README.md ===
# import-graph, modelled in Dafny

A model of the core of `import-graph`, a JavaScript library that builds the dependency
graph of a source tree. Each file's import statements become edges between files. The
model covers four parts:

- **Resolver** (`resolveFilePath`). It turns a raw import reference into a file path.
  - It picks the extensions to try. The reference's own extension wins. Otherwise the
    importer's extension is moved to the front.
  - It trims the extension off the reference.
  - It tries `dir/name.ext`, then the partial `dir/_name.ext`, for every load path in
    turn.
- **DependencyGraph** (the `Graph` class: constructor, `addFile`, the seed loop of
  `init`). The index maps each path to a node holding `imports` and `importedBy`.
  - `addFile` reads a file, resolves its references and appends the new ones.
  - It then recurses into each new import with the file as parent, and pushes the
    parent onto the child's `importedBy`.
- **Traversal** (`visit`, `visitAncestors`, `visitDescendants`). A depth-first walk
  with one visited list shared by the whole walk. The callback is modelled by the
  sequence of paths it is called with.
- **ImportParser** and **ImportGraph** (lib/import-parser.js and index.js).
  - The parser's pattern selection, its comment stripping and its quote extraction.
  - The option defaults, and the choice between a one-file graph and a directory
    graph.

### The filesystem and the parser

The filesystem is a finite map from path to entry: directory, regular file, or anything
else (socket, device, …). Symbolic links are not modelled (see "Left out").

A regular file's content is represented by the reference list that the injected parser
returns for it. This matches the graph's own tests, which inject a mock parser.

`fs.realpathSync` and `path.normalize` are taken to be the identity.

JavaScript's falsy `parent` and `dir` are the empty string. The well-formedness
predicate `FileSystem.WellFormed` keeps the empty string out of the filesystem.

### Termination of `addFile`

`addFile` has no "already processed" flag. It terminates because each recursive call
first appends a new edge. The measure is the number of pairs of existing paths that are
not yet an edge.

The invariant `DependencyGraph.Inv` is carried through the recursion. It holds a ghost
set of *pending* edges: edges appended whose child frame has not pushed its back-link
yet.

Once the recursion has unwound, the index is `Settled`:

- every regular file's `imports` is exactly the duplicate-free list of its resolvable
  references, in the order they were first resolved;
- every edge to a regular file is mirrored exactly once in that file's `importedBy`;
- every back-link belongs to an edge.

### Notes on the code's behaviour

- **The parent back-link is the parent path, unchanged.** Lines 87-93 of
  lib/graph.js look as if they strip a load-path prefix from the parent. They do
  not. `_(parent).intersection(this.loadPaths)` is always `[]`, because lodash treats a
  string as an empty array. `[]` is truthy, and `parent.indexOf([])` is `0`, so
  `substr` returns the whole parent.
- **`visit` reports nothing for a path that is on disk but not in the index.** The
  first edge-callback call, with an error, has its result ignored. The second call gets
  an `undefined` node and returns `[]`.
- **`addFile` re-reads an indexed file.** Nothing marks a file as processed, so adding
  an indexed regular file again reads it and reruns the reference loop. On a settled
  index this changes nothing (`DependencyGraph.AddFileAgainNoop`).
- **`addFile` reaches only the file's descendants.** Every node it creates is the file
  itself or reachable from it through `imports`. Nothing above the file is created.

### The order of `visit`

`visit` is a depth-first walk. Its visited list is shared by the whole walk. The
predicate `Traversal.DepthFirst` states the order without reference to the recursion,
path by path:

- Take the most recent reported path that still has an unvisited neighbour. If there is
  none, take the start.
- Its first unvisited neighbour is reported next.
- The walk ends when no such neighbour is left.

`Traversal.VisitIsDepthFirst` proves that a report is `visit`'s exactly when it obeys
this rule. For `s` importing `a` then `b`, and `a` importing `c`, the descendants are
therefore reported as `a`, `c`, `b` (`Traversal.DepthFirstExample`).

### The regex engine

`parse` runs `RegExp.exec` over the comment-stripped content. The model takes the
sequence of matches as a parameter. `ImportParser.Parse` requires only what any match
of that loop satisfies: its last group is a run of the stripped text, or the string
`undefined` when the group did not take part.

### Behaviour of the trimming regex

The trimming regex is built from the string `'(\.(' + …`. In a JavaScript string
literal `\.` is just `.`, so the regex's first character matches any character except
a line terminator (the regex has no `s` flag). A
reference `foojs` with extensions `["js"]` is therefore trimmed to `fo`
(`Resolver.TrimExamples`). The model keeps this behaviour as written.

## Model

| member | source | states |
|---|---|---|
| Common.IndexOf | lib/graph.js:165 | `_.indexOf`: -1 exactly when absent, otherwise a position holding the element with no earlier occurrence |
| Common.DropEmpty | lib/graph.js:74 | `filter()` keeps exactly the non-empty entries and never lengthens the list |
| Common.Uniq | lib/graph.js:74 | `uniq()` yields a duplicate-free list with exactly the input's elements |
| Common.UniqKeepsFirstOccurrenceOrder | lib/graph.js:74 | `uniq()` keeps elements in order of first occurrence |
| Paths.LastIndex | lib/graph.js:160 | the position of the last occurrence of a character, which does not occur after it; -1 when absent |
| Paths.TrimTrailingSlashes | lib/graph.js:160 | drops exactly the trailing run of separators |
| Paths.Basename | lib/graph.js:191 | the whole text after the last separator: a separator-free suffix of the path, preceded by a separator unless it is the entire path |
| Paths.Dirname | lib/graph.js:71 | `.` without a separator, `/` for a root file, otherwise directory + `/` + basename rebuilds the path |
| Paths.Extension | lib/graph.js:160 | exactly the text after the last dot of the basename, without the dot; empty when the basename has no dot past its first character, or ends in a dot |
| Paths.PartialOf | lib/graph.js:191 | the directory part, then `_`, then the basename: the underscore goes right before the last segment |
| Paths.Candidate | lib/graph.js:182 | `dir/name.ext`: the directory, a separator, the name, a dot and the extension, each at its place |
| Paths.Absolute | index.js:24 | an absolute path is unchanged; the empty path gives the working directory; a relative path is joined to it with `/` |
| Paths.Lower | lib/graph.js:175 | the `i` flag folds exactly the ASCII capitals onto their lower-case letters |
| Resolver.ExtensionOrder | lib/graph.js:159-172 | a configured own extension is tried alone; otherwise the importer's extension moves to the front with the others in their original order, a permutation of the configured list; with no importer, or its extension first or unconfigured, the list is unchanged |
| Resolver.MoveToFront | lib/graph.js:168-170 | the spliced copy starts with the moved extension, keeps the others' order, and is a permutation of the original |
| Resolver.Preferred | lib/graph.js:163-165 | -1 exactly when there is no importer or its extension is not configured; otherwise the first position of the importer's extension |
| Resolver.Alternatives | lib/graph.js:175 | the alternatives of the joined pattern: the configured list itself, or one empty alternative when the list is empty |
| Resolver.TrimExtension | lib/graph.js:175-176 | the result is a prefix of the reference; the removed suffix is a match of the trimming regex; no earlier position matches, so the longest matching suffix goes |
| Resolver.TrimFrom | lib/graph.js:176 | scanning from a position with no match before it finds the leftmost match |
| Resolver.TrimExamples | lib/graph.js:175-176 | `x.b.js` with `["js","b.js"]` trims to `x`; `foojs` with `["js"]` trims to `fo` |
| Resolver.TrimCaseExamples | lib/graph.js:175-176 | `foo.JS` trims to `foo`; `foo` without a configured extension is kept |
| Resolver.Directs | lib/graph.js:181-186 | one direct candidate per extension, in extension order |
| Resolver.Partials | lib/graph.js:189-195 | one partial candidate per extension, in extension order |
| Resolver.FirstExisting | lib/graph.js:183-194 | `None` exactly when no candidate exists, otherwise an existing candidate with no existing one before it |
| Resolver.Search | lib/graph.js:180-198 | whatever the search returns exists |
| Resolver.ResolveFilePath | lib/graph.js:158-199 | whatever the resolver returns exists |
| Resolver.SearchIsFirstExisting | lib/graph.js:180-198 | the nested loops return exactly the first existing path of the flat candidate list |
| Resolver.ResolveIsFirstExistingCandidate | lib/graph.js:158-199 | `false` exactly when no candidate exists; otherwise the first existing candidate |
| Resolver.LoadPathPrecedence | lib/graph.js:180-196 | a hit under an earlier load path beats everything under a later one |
| Resolver.DirectBeforePartial | lib/graph.js:181-195 | within a load path, all direct candidates come before all partials |
| Resolver.EarlierPartialBeatsLaterDirect | lib/graph.js:180-196 | an existing partial under the first load path wins over any later load path |
| Resolver.PreferImporterExtension | lib/graph.js:163-186 | when the importer's extension was moved to the front and that file exists under the first load path, it is the result |
| Resolver.PartialFallback | lib/graph.js:188-195 | with no direct candidate, an existing partial is found |
| DependencyGraph.NewGraph | lib/graph.js:25-34 | the index starts empty and the directory is the one given; each list option is its given value or `[]`; the pattern is the given one when truthy, `''` otherwise |
| DependencyGraph.ValueOr | lib/graph.js:29-31 | `options.x || []`: the given value when set and truthy, the default otherwise |
| DependencyGraph.SearchDirs | lib/graph.js:74 | duplicate-free, no empty entry, exactly the file's directory, the graph directory and the load paths, the file's directory first |
| DependencyGraph.UniqKeepsHead | lib/graph.js:74 | `uniq()` keeps the first element first |
| DependencyGraph.SearchDirsOrder | lib/graph.js:74 | search directories keep the order of their first occurrence |
| DependencyGraph.DropEmptyKeepsOrder | lib/graph.js:74 | `filter()` keeps the relative order of non-empty entries |
| DependencyGraph.Resolutions | lib/graph.js:75 | one resolution per reference, each existing when it resolved |
| DependencyGraph.Values | lib/graph.js:76-77 | skipping unresolved references keeps exactly the resolved paths |
| DependencyGraph.ExpectedImports | lib/graph.js:73-83 | a read file's imports are duplicate-free, exactly its resolvable references, in order of first resolution |
| DependencyGraph.ImportsStep | lib/graph.js:76-80 | one more reference appends its path when it resolved and is new, and changes nothing otherwise |
| DependencyGraph.UniqValuesStep | lib/graph.js:76-80 | the same step on any resolution list |
| DependencyGraph.ImportsMonotone | lib/graph.js:73-83 | reading more references only extends the imports list |
| DependencyGraph.UniqValuesMonotone | lib/graph.js:73-83 | the same on any resolution list |
| DependencyGraph.LoopStep | lib/graph.js:76-82 | after any re-entrant calls, the node's imports lie between the list for the references read so far and the completed list; a path is appended only where it extends the former |
| DependencyGraph.PrefixStep | lib/graph.js:79-80 | the same step on plain sequences |
| DependencyGraph.PrefixesOfOne | lib/graph.js:80 | two prefixes of one list are ordered by length |
| DependencyGraph.FinishedPersists | lib/graph.js:80 | a node with complete imports keeps them as the index grows |
| DependencyGraph.NewFinishedTrans | lib/graph.js:81 | nodes created by two successive calls all end complete |
| DependencyGraph.GrowsMeasure | lib/graph.js:80-81 | a growing index never increases the termination measure |
| DependencyGraph.CreatePreserves | lib/graph.js:55-59 | creating a missing node keeps the invariant and the measure |
| DependencyGraph.CreateFlat | lib/graph.js:55-59 | a new empty node keeps the per-node parts of the invariant |
| DependencyGraph.CreateLinks | lib/graph.js:55-59 | a new empty node keeps every edge mirrored |
| DependencyGraph.CreateEdges | lib/graph.js:55-59 | a new empty node adds no edge |
| DependencyGraph.AppendPreserves | lib/graph.js:80 | appending a new import keeps the invariant with one more pending edge, and strictly lowers the measure |
| DependencyGraph.AppendDistinct | lib/graph.js:79-80 | appending a path not yet imported keeps imports duplicate-free |
| DependencyGraph.AppendPrefix | lib/graph.js:80 | the appended list is still a prefix of the completed list |
| DependencyGraph.AppendForward | lib/graph.js:80 | every settled edge stays mirrored |
| DependencyGraph.AppendBackward | lib/graph.js:80 | every back-link still belongs to a settled edge |
| DependencyGraph.AppendPending | lib/graph.js:80 | the new edge is pending and every pending edge exists |
| DependencyGraph.AppendMeasure | lib/graph.js:80 | a new edge lowers the measure |
| DependencyGraph.AppendEdges | lib/graph.js:80 | appending adds exactly the one edge |
| DependencyGraph.NonFileSettles | lib/graph.js:62-65 | a directory or special entry returns at once, closing its pending edge |
| DependencyGraph.NonFileForward | lib/graph.js:62-65 | an edge to a non-file needs no back-link |
| DependencyGraph.LinkPreserves | lib/graph.js:86-96 | pushing the parent closes its pending edge and keeps the invariant |
| DependencyGraph.LinkFrame | lib/graph.js:95 | the push touches only the child's `importedBy` |
| DependencyGraph.LinkForward | lib/graph.js:95 | after the push the parent's edge is mirrored exactly once |
| DependencyGraph.LinkBackward | lib/graph.js:95 | the new back-link belongs to the now settled edge |
| DependencyGraph.LinkRest | lib/graph.js:95 | the push changes no node's imports |
| DependencyGraph.LinkParent | lib/graph.js:86-96 | with a parent, exactly that parent is appended to the child's `importedBy`; without one nothing changes |
| DependencyGraph.AddFileFrom | lib/graph.js:54-97 | the invariant holds with the frame's own edge closed, the index only grows, the file and every node it created end complete, and every created node is the file or reachable from it |
| DependencyGraph.AddRegularFile | lib/graph.js:67-96 | a regular file ends with its completed imports and its parent linked; every created node is reachable from it |
| DependencyGraph.AddImports | lib/graph.js:73-83 | the loop leaves the file's imports exactly complete, keeps the invariant, and creates only nodes reachable from the file |
| DependencyGraph.AddChild | lib/graph.js:79-82 | appending and recursing into a new import keeps the invariant, ends with the file complete, and creates only nodes reachable from the file |
| DependencyGraph.CreatedFinished | lib/graph.js:55-59 | the only node a frame creates itself is its own |
| DependencyGraph.NothingReadYet | lib/graph.js:73 | before the loop, no import has been read |
| DependencyGraph.AddFile | lib/graph.js:54-97 | a top-level `addFile` keeps the invariant, completes the file and every node it created, keeps a settled index settled, and creates only the file and nodes reachable from it through imports |
| DependencyGraph.FinishedKept | lib/graph.js:54-97 | if every old node was complete, every node is complete afterwards |
| DependencyGraph.Init | lib/graph.js:39-46 | without a directory the index is unchanged; otherwise every seed ends complete; a settled index stays settled; every created node is reachable from a seed |
| DependencyGraph.AddAll | lib/graph.js:42-44 | every seed ends in the index with its imports complete, and every created node is reachable from a seed |
| DependencyGraph.SettledIndex | lib/graph.js:54-97 | in a settled index, a file imports exactly the paths its references resolve to, without duplicates; non-files have no edges; each edge to a file is mirrored exactly once; each back-link belongs to an edge |
| DependencyGraph.AddFileAgainNoop | lib/graph.js:54-83 | re-adding an indexed path to a settled index leaves it unchanged |
| DependencyGraph.AddAllAgainNoop | lib/graph.js:42-44 | re-running the seed loop over indexed paths leaves a settled index unchanged |
| DependencyGraph.AddFileFromNoop | lib/graph.js:54-83 | a complete node added again without a parent changes nothing |
| DependencyGraph.AddRegularFileNoop | lib/graph.js:67-83 | re-reading a complete file appends nothing |
| DependencyGraph.AddImportsNoop | lib/graph.js:73-83 | over a complete imports list, every resolved reference is already present, so nothing is appended |
| DependencyGraph.GrowsTrans | lib/graph.js:54-97 | growth of the index composes |
| DependencyGraph.ReachesEdge | lib/graph.js:80 | an appended import is reachable from its importer |
| DependencyGraph.ReachesTrans | lib/graph.js:81 | reachability through imports composes, so a child's descendants are the parent's |
| DependencyGraph.ChildCreatedUnder | lib/graph.js:79-82 | nodes created by the recursive call on an import, and by the rest of the loop, are reachable from the importing file |
| DependencyGraph.SeedsCreatedUnder | lib/graph.js:42-44 | nodes created by the first seed and by the later seeds are each reachable from some seed |
| Traversal.Neighbours | lib/graph.js:129-146 | `importedBy` for ancestors, `imports` for descendants, `[]` for a path not in the index |
| Traversal.VisitFrom | lib/graph.js:106-121 | the visited list only grows and stays duplicate-free; every neighbour is visited; everything pushed has its neighbours visited; each push is a neighbour of the start or of an earlier push; an absent start pushes nothing; an unvisited first neighbour is pushed first |
| Traversal.VisitEdges | lib/graph.js:114-120 | the loop from edge `i` visits every remaining edge; each push is a neighbour of the start or of an earlier push; with no edge left nothing is pushed; an unvisited edge `i` is pushed first |
| Traversal.VisitNew | lib/graph.js:115-119 | an unvisited edge is pushed at once, every remaining edge ends visited, and each push is a neighbour of the start or of an earlier push |
| Traversal.CoverStep | lib/graph.js:114-120 | coverage of the remaining edges extends by one |
| Common.InPrefix | lib/graph.js:116 | the visited list never loses an entry |
| Traversal.UnvisitedShrinks | lib/graph.js:115-118 | pushing an unvisited target shrinks the set of unvisited targets, so the walk terminates |
| Traversal.StepFacts | lib/graph.js:117-119 | the recursive visit and the rest of the loop compose: every push is a neighbour of the start or of an earlier push, and every pushed path has its neighbours visited |
| Traversal.Visit | lib/graph.js:128-147 | the reported paths are duplicate-free; nothing for a path not in the index; the start's first neighbour comes first; the whole report follows the depth-first rule |
| Traversal.FirstNotIn | lib/graph.js:114-116 | the first edge not yet visited, when there is one, is an edge and is not visited |
| Traversal.FirstNotInAt | lib/graph.js:114-116 | when the edges before `i` are visited and edge `i` is not, edge `i` is the first unvisited one |
| Traversal.AllSeen | lib/graph.js:114-115 | when every edge is visited there is no unvisited edge |
| Traversal.VisitFromDepthFirst | lib/graph.js:106-121 | visiting from any duplicate-free visited list pushes exactly what the depth-first rule gives: next, the first unvisited neighbour of the most recent push that has one, or else of the start; nothing more when none is left |
| Traversal.VisitEdgesDepthFirst | lib/graph.js:114-120 | the loop from edge `i`, with the earlier edges visited, follows the depth-first rule |
| Traversal.VisitNewDepthFirst | lib/graph.js:115-119 | pushing an unvisited edge and recursing into it before the loop goes on follows the depth-first rule |
| Traversal.RestDepthFirst | lib/graph.js:118-120 | once the recursive visit of an edge has followed the rule for that edge, the rest of the loop continues the rule for the start |
| Traversal.NothingLeft | lib/graph.js:114-115 | with every edge visited the loop reports nothing, which the rule also gives |
| Traversal.DepthFirstStep | lib/graph.js:115-119 | the first unvisited edge, then its whole depth-first walk, then the parent's depth-first continuation, is a depth-first walk of the parent |
| Traversal.ChildFirst | lib/graph.js:115-117 | the first unvisited edge is the first path pushed |
| Traversal.InsideChild | lib/graph.js:118 | while the child's walk runs, the parent's rule picks what the child's rule picks |
| Traversal.AfterChild | lib/graph.js:119-120 | after the child's walk, the child and everything it pushed have no unvisited neighbour, so the parent's rule falls back to the parent's edges |
| Traversal.DepthFirstUnique | lib/graph.js:106-121 | the depth-first rule fixes the report: two reports that follow it from the same visited list are equal |
| Traversal.VisitIsDepthFirst | lib/graph.js:106-147 | a report is `visit`'s exactly when it follows the depth-first rule from the start |
| Traversal.DepthFirstExample | lib/graph.js:114-120 | for `s` importing `a` then `b`, and `a` importing `c`, the descendants are reported as `a`, `c`, `b` |
| Traversal.WalkEndReported | lib/graph.js:106-147 | every path reachable from the start by one or more edges is reported |
| Traversal.ReportedHasWalk | lib/graph.js:106-147 | every reported path is reachable from the start by one or more edges |
| Traversal.VisitIsReachable | lib/graph.js:106-147 | a path is reported exactly when it is reachable from the start by one or more edges, so the start only on a cycle |
| ImportParser.Init | lib/import-parser.js:21-23 | a truthy pattern is kept; any falsy one becomes `'js'`; the stored pattern is always truthy |
| ImportParser.Truthy | lib/import-parser.js:22 | JavaScript truthiness of a pattern: `undefined` and `''` are falsy; any other string and any `RegExp` is truthy |
| ImportParser.SyntaxRegExpOf | lib/import-parser.js:53-71 | a `RegExp` is used as given; every other value picks one of the four built-in regexes |
| ImportParser.InitSelects | lib/import-parser.js:21-71 | after `init`, each named regex is chosen exactly for its name or itself; anything else gives the combined one |
| ImportParser.FreshParserSelectsAllJs | lib/import-parser.js:53-54 | a parser never initialised uses the combined regex |
| ImportParser.CloseBlock | lib/import-parser.js:12 | a found block comment ends in `*/` |
| ImportParser.CommentAt | lib/import-parser.js:12 | a comment match starts with `/` and spans at least two characters |
| ImportParser.LineEnd | lib/import-parser.js:12 | the first line terminator at or after a position, none before it |
| ImportParser.StripComments | lib/import-parser.js:37 | removing comments never lengthens the text, and every kept character comes from the input |
| ImportParser.StripNoComment | lib/import-parser.js:37 | text with no `/` before its last character is unchanged |
| ImportParser.KeptFirst | lib/import-parser.js:37 | a character that opens no comment is kept |
| ImportParser.LineCommentRemoved | lib/import-parser.js:12 | a `//` comment followed by a line break is removed up to the break, the break kept |
| ImportParser.UnterminatedLineCommentKept | lib/import-parser.js:12 | a `//` comment on the last, unterminated line survives |
| ImportParser.NoLineBreakAfter | lib/import-parser.js:12 | `//` with no line break after it opens no comment |
| ImportParser.FirstSlashKept | lib/import-parser.js:12 | the first `/` of a `//` with no line break after it is kept |
| ImportParser.SlashKept | lib/import-parser.js:12 | a lone `/` before text without a `/` is kept, and so is the text |
| ImportParser.NoCloseAfter | lib/import-parser.js:12 | `/` with no later `/` opens no comment |
| ImportParser.BlockCommentRemoved | lib/import-parser.js:12 | a block comment on one line with a non-empty body is removed whole, whatever the body holds (slashes included) short of `*/` or a line break |
| ImportParser.MultiLineBlockCommentKept | lib/import-parser.js:12 | a block comment spanning a line break is kept |
| ImportParser.LineEndIs | lib/import-parser.js:12 | the line end is the first terminator |
| ImportParser.CloseBlockFinds | lib/import-parser.js:12 | the first `*/` on the line closes the comment |
| ImportParser.CloseBlockStopsAtBreak | lib/import-parser.js:12 | a line break before any `*/` means no match |
| ImportParser.BlockNeverCloses | lib/import-parser.js:12 | with no `/` left there is no close |
| ImportParser.CloseQuote | lib/import-parser.js:11 | the closing quote ends a capture that is non-empty and on one line |
| ImportParser.QuotedAt | lib/import-parser.js:11 | a quoted run starts and ends with a quote of either kind |
| ImportParser.ExtractQuoted | lib/import-parser.js:42-44 | every extracted string is a well-formed capture and a run of the input |
| ImportParser.ExtractEnquoted | lib/import-parser.js:42-44 | quoting well-formed strings and extracting them gives them back, whatever quote opens or closes each |
| ImportParser.ExtractFirst | lib/import-parser.js:42-44 | the first quoted string comes out first, then extraction goes on with the rest |
| ImportParser.ExtractHead | lib/import-parser.js:42-44 | a quoted run at the front is extracted and extraction resumes after its closing quote |
| ImportParser.SkipUnquoted | lib/import-parser.js:42-44 | text without quotes contributes nothing |
| ImportParser.CloseQuoteFinds | lib/import-parser.js:11 | the first quote after the content closes it |
| ImportParser.Collect | lib/import-parser.js:40-45 | every result is a well-formed capture |
| ImportParser.LastGroup | lib/import-parser.js:41-42 | `syntaxMatch[syntaxMatch.length - 1]`: the last capture group, or the whole match when the regex has none |
| ImportParser.CollectInfixes | lib/import-parser.js:40-44 | every collected reference is a run of the text the matches came from |
| ImportParser.CollectQuoteFree | lib/import-parser.js:40-44 | matches drawn from text without a quote character yield nothing |
| ImportParser.QuoteFreeKept | lib/import-parser.js:37 | stripping comments from text without a quote character leaves none |
| ImportParser.Parse | lib/import-parser.js:30-47 | every reference returned is a well-formed capture and a run of the comment-stripped content |
| ImportParser.ParseQuoteFree | lib/import-parser.js:30-47 | content without a quote character parses to no references, whatever regex is selected |
| ImportParser.ParseQuoteFreeText | lib/import-parser.js:40-47 | when the comment-stripped content has no quote character, parsing gives no references |
| ImportParser.ParseUndefined | lib/import-parser.js:30-37 | `parse()` with no argument reads the content `undefined` and gives no references |
| ImportParser.ParseOneMatch | lib/import-parser.js:40-45 | a single match whose last group quotes a list of strings yields exactly those strings, in order |
| ImportParser.CustomRegExpExample | lib/import-parser.js:40-44 | a custom regex match `customregexp'test16'` with last group `'test16'` gives `test16` |
| ImportParser.CollectAppend | lib/import-parser.js:40-45 | results come match by match, earlier matches first |
| ImportParser.UnquotedMatchContributesNothing | lib/import-parser.js:41-44 | a match whose last group has no quote adds nothing |
| ImportGraph.ProcessOptions | index.js:43-50 | every option key is present afterwards |
| ImportGraph.EffectiveOptions | index.js:43-50 | per key: absent gives the default, set-but-falsy gives an empty list or the empty pattern, truthy is kept |
| ImportGraph.Default | index.js:44-49 | `Object.assign` over one default: an absent key takes the default; a present key is kept, even when falsy |
| ImportGraph.ParserPatternDefaultsToJs | index.js:47 | the parser's pattern is the caller's when truthy and `'js'` otherwise |
| ImportGraph.CreateGraph | index.js:19-37 | for a non-empty existing entry: `null` exactly when it is neither file nor directory; a file gives a settled graph without a directory, holding the file complete and only paths reachable from it; a directory gives a settled graph rooted at it, every seed complete, every node reachable from a seed |

## Left out

- The glob of `init`. The paths it returns are a parameter (`seeds`), so `extensionPrefixes` and the pattern built from `extensions` are not interpreted.
- Timestamps: `stats.mtime` and the node's `modified` field (lib/graph.js:61) are left out; nothing in the core reads them back. The rest of `stats` is modelled. The `stats.isFile()` test at lib/graph.js:62 is the entry kind in the filesystem map. The map does not change, so re-reading the kind gives the value `statSync` stored.
- lib/node.js is not part of this model; the index stores plain `imports`/`importedBy` records.
- The four built-in syntax regexes and `RegExp.exec` are not modelled; `Parse` takes the list of matches as a parameter.
- The parser is not wired into the graph. A file's content is the reference list it would produce.
- `path.normalize` and `fs.realpathSync` are taken as the identity: `.`/`..`, repeated separators and symbolic links are not interpreted.
- Missing paths: `realpathSync`, `statSync` and `lstatSync` throw on them. Each throw becomes a precondition, as the next three lines say.
- ImportGraph.CreateGraph: `lstatSync` runs on the raw entry before `path.resolve` (index.js:21-24), so it requires a non-empty, existing entry and existing seeds.
- DependencyGraph.AddFile: `statSync` (lib/graph.js:58) throws for a path not on disk, so it requires the added path to exist.
- DependencyGraph.Init: it requires every seed to exist.
- Traversal.Visit: `visit` first calls `fs.realpathSync` on the start (lib/graph.js:107), which throws for a start that is not on disk. `Visit` has no filesystem; it takes the start as given and reports nothing for a start missing from the index.
- Symbolic links: `createGraph` uses `lstatSync`, which does not follow a link, so a link entry gives `null`. `addFile` uses `statSync` (lib/graph.js:58, :62), which follows it, so a link to a regular file found by the glob is read as that file. The model has no link entries: an entry is a directory, a regular file or something else, whichever function looks at it.
- `visit` also hands each node record to the callback, and calls the edge callback with an error for a start missing from the index. Only the order of the reported paths is modelled.
- Paths.Basename: a path ending in a separator is outside its intended inputs. `Basename("a/b/")` is `""`, while Node's `path.basename` gives `"b"`. The program never builds such a path: `addFile` gets its paths from `path.resolve` or `realpathSync`, and every candidate ends in `.ext`. Nothing in the model excludes such a filesystem key, though.
- Paths.Dirname: the same; `Dirname("a/b/")` is `"a/b"`, while Node's `path.dirname` gives `"a"`.
- Case folding under the regex `i` flag is ASCII only; other letters compare exactly.
- Regex metacharacters in configured extensions are treated as literal text.
- ImportParser.Parse: requires a custom regex to be global. A non-global regex that matches once makes the `exec` loop in `parse` run forever, because `exec` restarts from the beginning each time. A non-global regex that never matches returns `null` at once, so `parse` gives `[]`; the requires also excludes that terminating case. A global regex that matches the empty string loops forever as well, because `exec` does not move `lastIndex` past an empty match. The model takes the matches as a finite list and does not describe that loop.
- Option values of the wrong type, such as a truthy non-array `extensions`, are not modelled: a set option is either falsy or a list.
- ImportGraph.ProcessOptions: its own contract only says that every key ends up present; the value of each key is stated by `ImportGraph.EffectiveOptions`.
- Resolver.Search: its own contract only says the result exists; what it returns is stated by `Resolver.SearchIsFirstExisting`.
- Resolver.ResolveFilePath: its own contract only says the result exists; what it returns is stated by `Resolver.ResolveIsFirstExistingCandidate`.
- ImportParser.StripComments: its own contract only bounds the length and keeps characters from the input; its behaviour on each kind of comment is stated by the comment lemmas.
- Traversal.VisitFrom: its own contract states coverage, closure and the first push, not the whole order; the order is stated by `Traversal.VisitFromDepthFirst`.
- Traversal.VisitEdges: the same; the order is stated by `Traversal.VisitEdgesDepthFirst`.
- Traversal.VisitNew: the same; the order is stated by `Traversal.VisitNewDepthFirst`.
- Traversal.StepFacts: it composes closure and coverage only; `Traversal.DepthFirstStep` composes the order.
- ImportParser.Parse: which matches the regex finds is a parameter, so its own contract says only that each reference is a quoted run of the stripped content; `ImportParser.ParseOneMatch`, `ImportParser.ParseQuoteFree` and `ImportParser.ParseUndefined` pin the result for given matches.

=== FILE: common.dfy ===
/** Small shared vocabulary: an Option type for the source's `false`/`undefined`
    results and a few facts about duplicate-free sequences. */
module Common {

  datatype Option<+T> = None | Some(value: T)

  /** No element occurs twice. */
  predicate NoDup<T(==)>(s: seq<T>) {
    forall i, j :: 0 <= i < j < |s| ==> s[i] != s[j]
  }

  /** Position of the first occurrence of `x` in `s`, or `-1` (lodash `_.indexOf`). */
  function IndexOf<T(==)>(s: seq<T>, x: T): (r: int)
    ensures -1 <= r < |s|
    ensures r == -1 <==> x !in s
    ensures 0 <= r ==> s[r] == x && x !in s[..r]
  {
    if |s| == 0 then -1
    else if s[0] == x then 0
    else
      var k := IndexOf(s[1..], x);
      assert s[1..][..k + 1] == s[1..k + 2] by { }
      if k == -1 then -1 else k + 1
  }


  /** Drops every empty string (lodash `filter()` keeps truthy values only). */
  function DropEmpty(s: seq<string>): (r: seq<string>)
    ensures forall x :: x in r <==> x in s && x != ""
    ensures |r| <= |s|
  {
    if |s| == 0 then []
    else if s[0] == "" then DropEmpty(s[1..])
    else [s[0]] + DropEmpty(s[1..])
  }

  /** Keeps the first occurrence of every element (lodash `uniq()`), built left to right. */
  function Uniq<T(==,!new)>(s: seq<T>): (r: seq<T>)
    ensures NoDup(r)
    ensures forall x :: x in r <==> x in s
    decreases |s|
  {
    if |s| == 0 then []
    else
      var u := Uniq(s[..|s| - 1]);
      var x := s[|s| - 1];
      assert forall y :: y in s <==> y in s[..|s| - 1] || y == x by {
        assert s == s[..|s| - 1] + [x];
      }
      if x in u then u else u + [x]
  }

  /** Uniq keeps the order of first occurrences: whenever `a` first occurs before `b`
      in the input, `a` comes before `b` in the result. */
  lemma {:induction false} UniqKeepsFirstOccurrenceOrder<T(!new)>(s: seq<T>, a: T, b: T)
    requires a in s && b in s
    requires IndexOf(s, a) < IndexOf(s, b)
    ensures IndexOf(Uniq(s), a) < IndexOf(Uniq(s), b)
    decreases |s|
  {
    var init := s[..|s| - 1];
    var x := s[|s| - 1];
    assert s == init + [x];
    var u := Uniq(init);
    IndexOfPrefix(init, [x], b);
    if b in init {
      IndexOfPrefix(init, [x], a);
      UniqKeepsFirstOccurrenceOrder(init, a, b);
      IndexOfPrefix(u, [x], a);
      IndexOfPrefix(u, [x], b);
    } else {
      // b is the last element and occurs nowhere before it
      assert b == x;
      assert a != b;
      assert a in init;
      assert x !in u;
      IndexOfPrefix(u, [x], a);
      assert Uniq(s) == u + [x];
      assert IndexOf(u + [x], x) == |u| by {
        assert (u + [x])[|u|] == x;
        assert x !in (u + [x])[..|u|] by { assert (u + [x])[..|u|] == u; }
      }
    }
  }

  /** A position holding `x` with no earlier `x` is the first occurrence. */
  lemma IndexOfIs<T>(s: seq<T>, x: T, k: nat)
    requires k < |s| && s[k] == x && x !in s[..k]
    ensures IndexOf(s, x) == k
  {
    assert forall t :: 0 <= t < k ==> s[..k][t] == s[t];
    var r := IndexOf(s, x);
    assert forall t :: 0 <= t < r ==> s[..r][t] == s[t];
  }

  /** The first occurrence of an element of `a` in `a + b` is its first occurrence in `a`. */
  lemma IndexOfPrefix<T>(a: seq<T>, b: seq<T>, x: T)
    ensures x in a ==> IndexOf(a + b, x) == IndexOf(a, x)
    ensures x !in a && x in b ==> IndexOf(a + b, x) == |a| + IndexOf(b, x)
  {
    if x in a {
      var j := IndexOf(a, x);
      assert (a + b)[..j] == a[..j];
      IndexOfIs(a + b, x, j);
    } else if x in b {
      var j := IndexOf(b, x);
      assert (a + b)[..|a| + j] == a + b[..j];
      IndexOfIs(a + b, x, |a| + j);
    }
  }

  /** A subset is no larger than its superset. */
  lemma {:induction false} SubsetCard<T>(a: set<T>, b: set<T>)
    requires a <= b
    ensures |a| <= |b|
    decreases |a|
  {
    if a != {} {
      var x :| x in a;
      SubsetCard(a - {x}, b - {x});
    }
  }

  /** A proper subset is strictly smaller. */
  lemma ProperSubsetCard<T>(a: set<T>, b: set<T>)
    requires a <= b && exists y :: y in b && y !in a
    ensures |a| < |b|
  {
    var y :| y in b && y !in a;
    SubsetCard(a, b - {y});
  }

  /** What a sequence holds, every extension of it holds. */
  lemma InPrefix<T>(a: seq<T>, b: seq<T>, x: T)
    requires a <= b && x in a
    ensures x in b
  {
    var k :| 0 <= k < |a| && a[k] == x;
    assert b[k] == x;
  }
}

=== FILE: entry.dfy ===
/** index.js: filling in option defaults and choosing, from what the entry path is,
    whether to build the graph of one file or of a whole directory. */
module ImportGraph {
  import opened Common
  import opened Paths
  import opened FileSystem
  import opened DependencyGraph
  import ImportParser

  const DEFAULT_EXTENSIONS: seq<string> := ["js"]
  const DEFAULT_EXTENSION_PREFIXES: seq<string> := []
  const DEFAULT_DEPENDENCY_PATTERN: ImportParser.PatternValue := ImportParser.Text("js")

  /** One key of `Object.assign(defaults, options)`: the caller's key wins whenever it
      is present, whatever its value. */
  function Default<T>(f: Field<T>, d: T): (r: Field<T>)
    ensures f.Absent? ==> r == Given(d)
    ensures !f.Absent? ==> r == f
  {
    if f.Absent? then Given(d) else f
  }

  /** `processOptions(options)` (lines 43-50): `Object.assign` of the caller's options
      over the defaults, so a key the caller set wins even when its value is falsy.
      `cwd` stands for `process.cwd()`. */
  function ProcessOptions(options: Options, cwd: Path): (r: Options)
    ensures !r.extensions.Absent? && !r.extensionPrefixes.Absent?
    ensures !r.dependencyPattern.Absent? && !r.loadPaths.Absent?
  {
    Options(
      loadPaths := Default(options.loadPaths, [cwd]),
      extensions := Default(options.extensions, DEFAULT_EXTENSIONS),
      extensionPrefixes := Default(options.extensionPrefixes, DEFAULT_EXTENSION_PREFIXES),
      dependencyPattern := Default(options.dependencyPattern, DEFAULT_DEPENDENCY_PATTERN))
  }

  /** The configuration a graph ends up with: an absent key gets its default, a key set
      to a falsy value becomes an empty list (or the empty pattern, which the parser
      later reads as `'js'`), and a key set to a value keeps it. */
  lemma EffectiveOptions(options: Options, cwd: Path, dir: Path)
    ensures var c := NewGraph(ProcessOptions(options, cwd), dir).config;
            && c.dir == dir
            && c.extensions == (match options.extensions
                                case Absent => ["js"]
                                case Falsy => []
                                case Given(v) => v)
            && c.extensionPrefixes == (match options.extensionPrefixes
                                       case Given(v) => v
                                       case _ => [])
            && c.loadPaths == (match options.loadPaths
                               case Absent => [cwd]
                               case Falsy => []
                               case Given(v) => v)
            && c.dependencyPattern == (match options.dependencyPattern
                                       case Absent => ImportParser.Text("js")
                                       case Falsy => ImportParser.Text("")
                                       case Given(v) => if ImportParser.Truthy(v) then v else ImportParser.Text(""))
  {
  }

  /** Whatever the options, the pattern the graph's parser ends up using is the
      caller's when it is truthy and `'js'` otherwise. */
  lemma ParserPatternDefaultsToJs(options: Options, cwd: Path, dir: Path)
    ensures var c := NewGraph(ProcessOptions(options, cwd), dir).config;
            var p := ImportParser.Init(c.dependencyPattern).dependencyPattern;
            && (options.dependencyPattern.Given? && ImportParser.Truthy(options.dependencyPattern.value) ==>
                  p == options.dependencyPattern.value)
            && (!(options.dependencyPattern.Given? && ImportParser.Truthy(options.dependencyPattern.value)) ==>
                  p == ImportParser.Text("js"))
  {
  }

  /** `createGraph(entryPath, options)` (lines 19-37). The entry is looked up through
      `lstat`, so a symbolic link counts as neither a file nor a directory and gives
      `null`. A file gets a graph without a directory built by `addFile` alone; a
      directory gets a graph rooted at it and filled by `init` from `seeds`, the paths
      the glob would return. A one-file graph holds only the entry and what it imports,
      directly or not; a directory graph only the seeds and what they import. The raw
      entry is given to `lstat` before it is resolved, so the empty entry throws. */
  function CreateGraph(fs: Fs, cwd: Path, entry: Path, options: Options, seeds: seq<Path>): (r: Option<Graph>)
    requires entry != ""
    requires WellFormed(fs) && Absolute(cwd, entry) in fs
    requires forall s :: s in seeds ==> s in fs
    ensures r.None? <==> fs[Absolute(cwd, entry)].Special?
    ensures fs[Absolute(cwd, entry)].RegularFile? ==>
              && r.Some? && r.value.config.dir == ""
              && Settled(fs, r.value.config, r.value.index)
              && Finished(fs, r.value.config, r.value.index, Absolute(cwd, entry))
              && forall p :: p in r.value.index ==> Reaches(r.value.index, Absolute(cwd, entry), p)
    ensures fs[Absolute(cwd, entry)].Directory? ==>
              && r.Some? && r.value.config.dir == Absolute(cwd, entry)
              && Settled(fs, r.value.config, r.value.index)
              && (forall s :: s in seeds ==> Finished(fs, r.value.config, r.value.index, s))
              && forall p :: p in r.value.index ==> exists s :: s in seeds && Reaches(r.value.index, s, p)
  {
    var abs := Absolute(cwd, entry);
    var opts := ProcessOptions(options, cwd);
    match fs[abs]
    case Special => None
    case RegularFile(_) =>
      var g := NewGraph(opts, "");
      Some(g.(index := AddFile(fs, g.config, g.index, abs)))
    case Directory =>
      var g := NewGraph(opts, abs);
      Some(g.(index := Init(fs, g.config, g.index, seeds)))
  }
}

=== FILE: graph.dfy ===
/** The `Graph` class of lib/graph.js: its configuration, its index
    `path -> {imports, importedBy}`, and the recursive `addFile` and `init` that fill
    the index. The index is an immutable map threaded through the recursion. */
module DependencyGraph {
  import opened Common
  import opened Paths
  import opened FileSystem
  import opened Resolver
  import ImportParser

  // ---------------------------------------------------------------- data

  /** One index entry: the resolved paths the file imports, in the order they were
      first resolved, and the files that import it. */
  datatype Node = Node(imports: seq<Path>, importedBy: seq<Path>)

  type Index = map<Path, Node>

  /** One key of a JavaScript options object: missing, present with a falsy value
      (`undefined`, `null`, …), or present with a truthy value. */
  datatype Field<T> = Absent | Falsy | Given(value: T)

  datatype Options = Options(
    loadPaths: Field<seq<Path>>,
    extensions: Field<seq<string>>,
    extensionPrefixes: Field<seq<string>>,
    dependencyPattern: Field<ImportParser.PatternValue>)

  /** What the constructor stores; `dir` is "" when no directory was given. */
  datatype Config = Config(
    dir: Path,
    loadPaths: seq<Path>,
    extensions: seq<string>,
    extensionPrefixes: seq<string>,
    dependencyPattern: ImportParser.PatternValue)

  datatype Graph = Graph(config: Config, index: Index)

  /** `options.x || default`: a truthy value is kept, a missing or falsy one replaced. */
  function ValueOr<T>(f: Field<T>, default: T): (r: T)
    ensures f.Given? ==> r == f.value
    ensures !f.Given? ==> r == default
  {
    if f.Given? then f.value else default
  }

  /** `new Graph(importParser, options, dir)`: every missing or falsy option becomes an
      empty list, or '' for the dependency pattern; the index starts empty. */
  function NewGraph(options: Options, dir: Path): (g: Graph)
    ensures g.index == map[]
    ensures g.config.dir == dir
    ensures options.loadPaths.Given? ==> g.config.loadPaths == options.loadPaths.value
    ensures !options.loadPaths.Given? ==> g.config.loadPaths == []
    ensures options.extensions.Given? ==> g.config.extensions == options.extensions.value
    ensures !options.extensions.Given? ==> g.config.extensions == []
    ensures options.extensionPrefixes.Given? ==> g.config.extensionPrefixes == options.extensionPrefixes.value
    ensures !options.extensionPrefixes.Given? ==> g.config.extensionPrefixes == []
    ensures var pattern := options.dependencyPattern;
            pattern.Given? && ImportParser.Truthy(pattern.value) ==> g.config.dependencyPattern == pattern.value
    ensures var pattern := options.dependencyPattern;
            !(pattern.Given? && ImportParser.Truthy(pattern.value)) ==> g.config.dependencyPattern == ImportParser.Text("")
  {
    var pattern := options.dependencyPattern;
    Graph(Config(dir,
                 ValueOr(options.loadPaths, []),
                 ValueOr(options.extensions, []),
                 ValueOr(options.extensionPrefixes, []),
                 if pattern.Given? && ImportParser.Truthy(pattern.value) then pattern.value
                 else ImportParser.Text("")),
          map[])
  }

  // ---------------------------------------------------------------- resolution per file

  /** `_([cwd, this.dir]).concat(this.loadPaths).filter().uniq()`: the file's own
      directory, the graph directory, then the load paths; empty entries dropped and
      only the first occurrence of each kept. */
  function SearchDirs(cfg: Config, file: Path): (r: seq<Path>)
    ensures NoDup(r) && "" !in r
    ensures forall d :: d in r <==> d != "" && (d == Dirname(file) || d == cfg.dir || d in cfg.loadPaths)
    ensures |r| > 0 && r[0] == Dirname(file)
  {
    var all := [Dirname(file), cfg.dir] + cfg.loadPaths;
    var kept := DropEmpty(all);
    assert Dirname(file) != "";
    assert kept[0] == Dirname(file) by {
      assert all[0] == Dirname(file);
      assert kept == [Dirname(file)] + DropEmpty(all[1..]);
    }
    var r := Uniq(kept);
    assert r[0] == Dirname(file) by { UniqKeepsHead(kept); }
    r
  }

  lemma {:induction false} UniqKeepsHead<T(!new)>(s: seq<T>)
    requires |s| > 0
    ensures |Uniq(s)| > 0 && Uniq(s)[0] == s[0]
    decreases |s|
  {
    if |s| > 1 {
      UniqKeepsHead(s[..|s| - 1]);
      assert s[..|s| - 1][0] == s[0];
    } else {
      assert s[..|s| - 1] == [];
    }
  }

  /** Search directories keep the order of their first occurrence in
      `[dirname(file), dir] + loadPaths`. */
  lemma SearchDirsOrder(cfg: Config, file: Path, a: Path, b: Path)
    requires a != "" && b != ""
    requires var all := [Dirname(file), cfg.dir] + cfg.loadPaths;
             a in all && b in all && IndexOf(all, a) < IndexOf(all, b)
    ensures IndexOf(SearchDirs(cfg, file), a) < IndexOf(SearchDirs(cfg, file), b)
  {
    var all := [Dirname(file), cfg.dir] + cfg.loadPaths;
    DropEmptyKeepsOrder(all, a, b);
    UniqKeepsFirstOccurrenceOrder(DropEmpty(all), a, b);
  }

  lemma {:induction false} DropEmptyKeepsOrder(s: seq<string>, a: string, b: string)
    requires a != "" && b != "" && a in s && b in s && IndexOf(s, a) < IndexOf(s, b)
    ensures a in DropEmpty(s) && b in DropEmpty(s)
    ensures IndexOf(DropEmpty(s), a) < IndexOf(DropEmpty(s), b)
  {
    assert s == [s[0]] + s[1..];
    if s[0] == a {
      assert DropEmpty(s)[0] == a;
    } else {
      assert IndexOf(s, a) == IndexOf(s[1..], a) + 1;
      assert IndexOf(s, b) == IndexOf(s[1..], b) + 1;
      DropEmptyKeepsOrder(s[1..], a, b);
      if s[0] != "" {
        assert DropEmpty(s) == [s[0]] + DropEmpty(s[1..]);
        IndexOfPrefix([s[0]], DropEmpty(s[1..]), a);
        IndexOfPrefix([s[0]], DropEmpty(s[1..]), b);
      }
    }
  }

  /** The resolution of every reference of `file`, `None` for `false`. */
  function Resolutions(fs: Fs, cfg: Config, file: Path, refs: seq<string>): (r: seq<Option<Path>>)
    ensures |r| == |refs|
    ensures forall i :: 0 <= i < |refs| ==>
              r[i] == ResolveFilePath(fs, refs[i], SearchDirs(cfg, file), cfg.extensions, file)
    ensures forall i :: 0 <= i < |refs| && r[i].Some? ==> r[i].value in fs
  {
    seq(|refs|, i requires 0 <= i < |refs| =>
      ResolveFilePath(fs, refs[i], SearchDirs(cfg, file), cfg.extensions, file))
  }

  /** The resolved paths, unresolved references skipped. */
  function Values(os: seq<Option<Path>>): (r: seq<Path>)
    ensures forall x :: x in r <==> Some(x) in os
  {
    if os == [] then []
    else
      var last := os[|os| - 1];
      assert os == os[..|os| - 1] + [last];
      Values(os[..|os| - 1]) + (if last.Some? then [last.value] else [])
  }

  /** The `imports` list `addFile` builds for a regular file from its first `n`
      references: resolved paths in order of first resolution, no duplicates. */
  function ImportsUpTo(fs: Fs, cfg: Config, file: Path, n: nat): seq<Path>
    requires file in fs && fs[file].RegularFile? && n <= |fs[file].references|
  {
    Uniq(Values(Resolutions(fs, cfg, file, fs[file].references)[..n]))
  }

  /** The `imports` list of a regular file once `addFile` has read all of it. */
  function Expected(fs: Fs, cfg: Config, file: Path): seq<Path>
    requires file in fs && fs[file].RegularFile?
  {
    ImportsUpTo(fs, cfg, file, |fs[file].references|)
  }

  /** A regular file's completed imports: duplicate-free, exactly its resolvable
      references (unresolved ones skipped), in the order they were first resolved. */
  lemma ExpectedImports(fs: Fs, cfg: Config, file: Path, x: Path, y: Path)
    requires file in fs && fs[file].RegularFile?
    ensures var e := Expected(fs, cfg, file);
            var rs := Resolutions(fs, cfg, file, fs[file].references);
            && NoDup(e)
            && (x in e <==> exists i :: 0 <= i < |rs| && rs[i] == Some(x))
            && (x in e && y in e && IndexOf(Values(rs), x) < IndexOf(Values(rs), y) ==>
                  IndexOf(e, x) < IndexOf(e, y))
  {
    var rs := Resolutions(fs, cfg, file, fs[file].references);
    assert rs[..|rs|] == rs;
    if x in Expected(fs, cfg, file) && y in Expected(fs, cfg, file)
       && IndexOf(Values(rs), x) < IndexOf(Values(rs), y) {
      UniqKeepsFirstOccurrenceOrder(Values(rs), x, y);
    }
  }

  /** One more reference: the list grows by that reference's path when it resolved and
      is new, and stays the same otherwise. */
  lemma ImportsStep(fs: Fs, cfg: Config, file: Path, i: nat)
    requires file in fs && fs[file].RegularFile? && i < |fs[file].references|
    ensures var rs := Resolutions(fs, cfg, file, fs[file].references);
            var d := ImportsUpTo(fs, cfg, file, i);
            ImportsUpTo(fs, cfg, file, i + 1) ==
              if rs[i].Some? && rs[i].value !in d then d + [rs[i].value] else d
  {
    var rs := Resolutions(fs, cfg, file, fs[file].references);
    UniqValuesStep(rs, i);
  }

  lemma UniqValuesStep(os: seq<Option<Path>>, i: nat)
    requires i < |os|
    ensures var d := Uniq(Values(os[..i]));
            Uniq(Values(os[..i + 1])) ==
              if os[i].Some? && os[i].value !in d then d + [os[i].value] else d
  {
    assert os[..i + 1][..i] == os[..i];
    assert os[..i + 1][i] == os[i];
    var vs := Values(os[..i + 1]);
    if os[i].Some? {
      assert vs == Values(os[..i]) + [os[i].value];
      assert vs[..|vs| - 1] == Values(os[..i]);
    } else {
      assert vs == Values(os[..i]);
    }
  }

  lemma ImportsMonotone(fs: Fs, cfg: Config, file: Path, i: nat, j: nat)
    requires file in fs && fs[file].RegularFile? && i <= j <= |fs[file].references|
    ensures ImportsUpTo(fs, cfg, file, i) <= ImportsUpTo(fs, cfg, file, j)
  {
    UniqValuesMonotone(Resolutions(fs, cfg, file, fs[file].references), i, j);
  }

  lemma UniqValuesMonotone(os: seq<Option<Path>>, i: nat, j: nat)
    requires i <= j <= |os|
    ensures Uniq(Values(os[..i])) <= Uniq(Values(os[..j]))
  {
    var us := seq(|os| + 1, k requires 0 <= k <= |os| => Uniq(Values(os[..k])));
    forall k | 0 <= k < |os| ensures us[k] <= us[k + 1] {
      UniqValuesStep(os, k);
    }
    ChainPrefix(us, i, j);
  }

  /** In a chain of sequences each a prefix of the next, an earlier one is a prefix of
      any later one. */
  lemma {:induction false} ChainPrefix(us: seq<seq<Path>>, i: nat, j: nat)
    requires i <= j < |us|
    requires forall k :: 0 <= k < |us| - 1 ==> us[k] <= us[k + 1]
    ensures us[i] <= us[j]
    decreases j - i
  {
    if i < j {
      ChainPrefix(us, i, j - 1);
      PrefixTrans(us[i], us[j - 1], us[j]);
    }
  }

  lemma PrefixTrans<T>(a: seq<T>, b: seq<T>, c: seq<T>)
    requires a <= b && b <= c
    ensures a <= c
  {
    assert forall k :: 0 <= k < |a| ==> a[k] == b[k] == c[k];
  }

  // ---------------------------------------------------------------- invariant

  /** The edges `(p, q)` whose `addFile(q, p)` frame is still running: `q` is in
      `p`'s imports but the back-link has not been pushed yet. */
  type Pending = set<(Path, Path)>

  ghost predicate KeysExist(fs: Fs, g: Index) {
    forall p :: p in g ==> p in fs
  }

  ghost predicate ImportsDistinct(fs: Fs, g: Index) {
    forall p :: p in g ==> NoDup(g[p].imports) && forall q :: q in g[p].imports ==> q in fs
  }

  /** A regular file's imports are always a prefix of its completed list. */
  ghost predicate ImportsPrefix(fs: Fs, cfg: Config, g: Index)
    requires KeysExist(fs, g)
  {
    forall p :: p in g && fs[p].RegularFile? ==> g[p].imports <= Expected(fs, cfg, p)
  }

  /** A directory or special entry has no edges at all. */
  ghost predicate NonFilesBare(fs: Fs, g: Index)
    requires KeysExist(fs, g)
  {
    forall p :: p in g && !fs[p].RegularFile? ==> g[p].imports == [] && g[p].importedBy == []
  }

  /** Every settled edge `p -> q` to a regular file is mirrored exactly once in
      `q.importedBy`; a non-file target mirrors nothing. */
  ghost predicate Forward(fs: Fs, g: Index, pending: Pending) {
    forall p, q {:trigger q in g[p].imports} :: p in g && q in g[p].imports && (p, q) !in pending ==>
      q in g && q in fs && multiset(g[q].importedBy)[p] == (if fs[q].RegularFile? then 1 else 0)
  }

  /** Every back-link belongs to a settled edge. */
  ghost predicate Backward(g: Index, pending: Pending) {
    forall q, p {:trigger p in g[q].importedBy} :: q in g && p in g[q].importedBy ==> p in g && q in g[p].imports && (p, q) !in pending
  }

  ghost predicate PendingEdges(g: Index, pending: Pending) {
    forall e :: e in pending ==> e.0 in g && e.1 in g[e.0].imports
  }

  ghost predicate Inv(fs: Fs, cfg: Config, g: Index, pending: Pending) {
    && KeysExist(fs, g)
    && ImportsDistinct(fs, g)
    && ImportsPrefix(fs, cfg, g)
    && NonFilesBare(fs, g)
    && Forward(fs, g, pending)
    && Backward(g, pending)
    && PendingEdges(g, pending)
  }

  /** Nodes are never removed and imports only grow at the end. */
  ghost predicate Grows(g: Index, g': Index) {
    forall p :: p in g ==> p in g' && g[p].imports <= g'[p].imports
  }

  /** `w` follows import edges: each path is imported by the one before it. */
  ghost predicate ImportChain(g: Index, w: seq<Path>) {
    |w| > 0 && forall i :: 0 <= i < |w| - 1 ==> w[i] in g && w[i + 1] in g[w[i]].imports
  }

  /** `q` is `x` itself or is reached from `x` by following imports. */
  ghost predicate Reaches(g: Index, x: Path, q: Path) {
    exists w :: ImportChain(g, w) && w[0] == x && w[|w| - 1] == q
  }

  /** Every node `g'` holds beyond `g` is `x` or one of its transitive imports. */
  ghost predicate CreatedUnder(g: Index, g': Index, x: Path) {
    forall p :: p in g' && p !in g ==> Reaches(g', x, p)
  }

  lemma ReachesSelf(g: Index, x: Path)
    ensures Reaches(g, x, x)
  {
    assert ImportChain(g, [x]);
  }

  lemma ReachesEdge(g: Index, x: Path, y: Path)
    requires x in g && y in g[x].imports
    ensures Reaches(g, x, y)
  {
    assert ImportChain(g, [x, y]);
  }

  /** A chain of imports survives growth of the index. */
  lemma ReachesGrows(a: Index, b: Index, x: Path, q: Path)
    requires Reaches(a, x, q) && Grows(a, b)
    ensures Reaches(b, x, q)
  {
    var w :| ImportChain(a, w) && w[0] == x && w[|w| - 1] == q;
    forall i | 0 <= i < |w| - 1 ensures w[i] in b && w[i + 1] in b[w[i]].imports {
      InPrefix(a[w[i]].imports, b[w[i]].imports, w[i + 1]);
    }
    assert ImportChain(b, w);
  }

  lemma ReachesTrans(g: Index, x: Path, y: Path, q: Path)
    requires Reaches(g, x, y) && Reaches(g, y, q)
    ensures Reaches(g, x, q)
  {
    var u :| ImportChain(g, u) && u[0] == x && u[|u| - 1] == y;
    var v :| ImportChain(g, v) && v[0] == y && v[|v| - 1] == q;
    ChainJoin(g, u, v);
  }

  /** Two chains where the first ends at the start of the second make one chain. */
  lemma ChainJoin(g: Index, u: seq<Path>, v: seq<Path>)
    requires ImportChain(g, u) && ImportChain(g, v) && u[|u| - 1] == v[0]
    ensures var w := u + v[1..];
            ImportChain(g, w) && w[0] == u[0] && w[|w| - 1] == v[|v| - 1]
  {
    var w := u + v[1..];
    assert forall i :: 0 <= i < |u| ==> w[i] == u[i];
    assert forall j :: 1 <= j < |v| ==> w[|u| + j - 1] == v[j];
    forall i | 0 <= i < |w| - 1 ensures w[i] in g && w[i + 1] in g[w[i]].imports {
      if i + 1 < |u| {
        ChainLink(g, u, i + 1);
      } else {
        var j := i - |u| + 2;
        assert w[i] == v[j - 1] && w[i + 1] == v[j];
        ChainLink(g, v, j);
      }
    }
  }

  lemma ChainLink(g: Index, w: seq<Path>, i: nat)
    requires ImportChain(g, w) && 0 < i < |w|
    ensures w[i - 1] in g && w[i] in g[w[i - 1]].imports
  {
    assert w[i - 1 + 1] == w[i];
  }

  lemma CreatedUnderTrans(a: Index, b: Index, c: Index, x: Path)
    requires CreatedUnder(a, b, x) && CreatedUnder(b, c, x) && Grows(b, c)
    ensures CreatedUnder(a, c, x)
  {
    forall p | p in c && p !in a ensures Reaches(c, x, p) {
      if p in b { ReachesGrows(b, c, x, p); }
    }
  }

  /** A node whose imports are complete (a directory or special entry always is). */
  ghost predicate Finished(fs: Fs, cfg: Config, g: Index, p: Path) {
    p in g && p in fs && (fs[p].RegularFile? ==> g[p].imports == Expected(fs, cfg, p))
  }

  /** Every node created between `g` and `g'` is finished. */
  ghost predicate NewFinished(fs: Fs, cfg: Config, g: Index, g': Index) {
    forall p :: p in g' && p !in g ==> Finished(fs, cfg, g', p)
  }

  /** Every node of `g` is finished. */
  ghost predicate AllFinished(fs: Fs, cfg: Config, g: Index) {
    forall p :: p in g ==> Finished(fs, cfg, g, p)
  }

  /** A finished node stays finished: its imports can only grow, and never past the
      completed list. */
  lemma FinishedPersists(fs: Fs, cfg: Config, a: Index, b: Index, p: Path)
    requires Finished(fs, cfg, a, p) && Grows(a, b) && KeysExist(fs, b) && ImportsPrefix(fs, cfg, b)
    ensures Finished(fs, cfg, b, p)
  {
  }

  lemma NewFinishedTrans(fs: Fs, cfg: Config, a: Index, b: Index, c: Index)
    requires NewFinished(fs, cfg, a, b) && NewFinished(fs, cfg, b, c)
    requires Grows(a, b) && Grows(b, c) && KeysExist(fs, c) && ImportsPrefix(fs, cfg, c)
    ensures NewFinished(fs, cfg, a, c)
  {
    forall p | p in c && p !in a ensures Finished(fs, cfg, c, p) {
      if p in b { FinishedPersists(fs, cfg, b, c, p); }
    }
  }

  ghost function Edges(g: Index): set<(Path, Path)> {
    set p, q | p in g && q in g[p].imports :: (p, q)
  }

  ghost function AllPairs(fs: Fs): set<(Path, Path)> {
    set p, q | p in fs && q in fs :: (p, q)
  }

  /** Termination measure of `addFile`: the pairs of existing paths not yet an edge. */
  ghost function Measure(fs: Fs, g: Index): nat {
    |AllPairs(fs) - Edges(g)|
  }

  lemma GrowsMeasure(fs: Fs, g: Index, g': Index)
    requires Grows(g, g')
    ensures Measure(fs, g') <= Measure(fs, g)
  {
    assert Edges(g) <= Edges(g') by {
      forall e | e in Edges(g) ensures e in Edges(g') {
        var p, q :| p in g && q in g[p].imports && e == (p, q);
        assert q in g'[p].imports;
      }
    }
    SubsetCard(AllPairs(fs) - Edges(g'), AllPairs(fs) - Edges(g));
  }

  // ---------------------------------------------------------------- steps of addFile

  /** Lines 55-59: get or create the node. */
  lemma CreatePreserves(fs: Fs, cfg: Config, g: Index, x: Path, pending: Pending)
    requires Inv(fs, cfg, g, pending) && x in fs
    ensures var g1 := if x in g then g else g[x := Node([], [])];
            Inv(fs, cfg, g1, pending) && Grows(g, g1) && Measure(fs, g1) == Measure(fs, g)
  {
    if x !in g {
      CreateEdges(g, x);
      CreateFlat(fs, cfg, g, x);
      CreateLinks(fs, g, x, pending);
    }
  }

  lemma CreateEdges(g: Index, x: Path)
    requires x !in g
    ensures Edges(g[x := Node([], [])]) == Edges(g)
  {
  }

  lemma CreateFlat(fs: Fs, cfg: Config, g: Index, x: Path)
    requires KeysExist(fs, g) && ImportsDistinct(fs, g) && ImportsPrefix(fs, cfg, g)
    requires NonFilesBare(fs, g) && x in fs && x !in g
    ensures var g1 := g[x := Node([], [])];
            && KeysExist(fs, g1) && ImportsDistinct(fs, g1) && ImportsPrefix(fs, cfg, g1)
            && NonFilesBare(fs, g1) && Grows(g, g1)
  {
    var g1 := g[x := Node([], [])];
    forall p | p in g1 && fs[p].RegularFile? ensures g1[p].imports <= Expected(fs, cfg, p) {
      if p != x { assert g1[p] == g[p]; }
    }
  }

  lemma CreateLinks(fs: Fs, g: Index, x: Path, pending: Pending)
    requires Forward(fs, g, pending) && Backward(g, pending) && PendingEdges(g, pending) && x !in g
    ensures var g1 := g[x := Node([], [])];
            Forward(fs, g1, pending) && Backward(g1, pending) && PendingEdges(g1, pending)
  {
    var g1 := g[x := Node([], [])];
    forall p, q | p in g1 && q in g1[p].imports && (p, q) !in pending
      ensures q in g1 && q in fs && multiset(g1[q].importedBy)[p] == (if fs[q].RegularFile? then 1 else 0)
    {
      assert p != x && g1[p] == g[p] && q in g[p].imports;
      assert q in g && q != x && g1[q] == g[q];
    }
    forall q, p | q in g1 && p in g1[q].importedBy ensures p in g1 && q in g1[p].imports && (p, q) !in pending {
      assert q != x && g1[q] == g[q] && p in g[q].importedBy;
      assert p in g && p != x && g1[p] == g[p];
    }
  }

  /** Line 80: append a new import and open its pending edge. */
  lemma AppendPreserves(fs: Fs, cfg: Config, g: Index, p: Path, r: Path, pending: Pending)
    requires Inv(fs, cfg, g, pending)
    requires p in g && fs[p].RegularFile? && r in fs && r !in g[p].imports
    requires g[p].imports + [r] <= Expected(fs, cfg, p)
    ensures var g1 := g[p := g[p].(imports := g[p].imports + [r])];
            && Inv(fs, cfg, g1, pending + {(p, r)})
            && Grows(g, g1)
            && Measure(fs, g1) < Measure(fs, g)
            && (p, r) !in pending
  {
    var g1 := g[p := g[p].(imports := g[p].imports + [r])];
    AppendDistinct(fs, g, p, r);
    AppendPrefix(fs, cfg, g, p, r);
    AppendForward(fs, g, p, r, pending);
    AppendBackward(g, p, r, pending);
    AppendPending(g, p, r, pending);
    AppendMeasure(fs, g, p, r);
  }

  lemma AppendDistinct(fs: Fs, g: Index, p: Path, r: Path)
    requires ImportsDistinct(fs, g) && p in g && r in fs && r !in g[p].imports
    ensures ImportsDistinct(fs, g[p := g[p].(imports := g[p].imports + [r])])
  {
    assert NoDup(g[p].imports + [r]);
  }

  lemma AppendPrefix(fs: Fs, cfg: Config, g: Index, p: Path, r: Path)
    requires KeysExist(fs, g) && ImportsPrefix(fs, cfg, g) && NonFilesBare(fs, g)
    requires p in g && fs[p].RegularFile? && g[p].imports + [r] <= Expected(fs, cfg, p)
    ensures var g1 := g[p := g[p].(imports := g[p].imports + [r])];
            KeysExist(fs, g1) && ImportsPrefix(fs, cfg, g1) && NonFilesBare(fs, g1)
  {
  }

  lemma AppendForward(fs: Fs, g: Index, p: Path, r: Path, pending: Pending)
    requires Forward(fs, g, pending) && p in g
    ensures Forward(fs, g[p := g[p].(imports := g[p].imports + [r])], pending + {(p, r)})
  {
    var g1 := g[p := g[p].(imports := g[p].imports + [r])];
    var s1 := pending + {(p, r)};
    forall a, b | a in g1 && b in g1[a].imports && (a, b) !in s1
      ensures b in g1 && b in fs && multiset(g1[b].importedBy)[a] == (if fs[b].RegularFile? then 1 else 0)
    {
      assert b in g[a].imports;
      assert g1[b].importedBy == g[b].importedBy;
    }
  }

  lemma AppendBackward(g: Index, p: Path, r: Path, pending: Pending)
    requires Backward(g, pending) && p in g && r !in g[p].imports
    ensures Backward(g[p := g[p].(imports := g[p].imports + [r])], pending + {(p, r)})
  {
    var g1 := g[p := g[p].(imports := g[p].imports + [r])];
    forall b, a | b in g1 && a in g1[b].importedBy
      ensures a in g1 && b in g1[a].imports && (a, b) !in pending + {(p, r)}
    {
      assert a in g[b].importedBy;
      assert b in g[a].imports;
    }
  }

  lemma AppendPending(g: Index, p: Path, r: Path, pending: Pending)
    requires PendingEdges(g, pending) && p in g && r !in g[p].imports
    ensures PendingEdges(g[p := g[p].(imports := g[p].imports + [r])], pending + {(p, r)})
    ensures (p, r) !in pending
  {
  }

  lemma AppendMeasure(fs: Fs, g: Index, p: Path, r: Path)
    requires p in g && p in fs && r in fs && r !in g[p].imports
    ensures var g1 := g[p := g[p].(imports := g[p].imports + [r])];
            Grows(g, g1) && Measure(fs, g1) < Measure(fs, g)
  {
    var g1 := g[p := g[p].(imports := g[p].imports + [r])];
    AppendEdges(g, p, r);
    assert (p, r) in AllPairs(fs);
    ProperSubsetCard(AllPairs(fs) - Edges(g1), AllPairs(fs) - Edges(g));
  }

  lemma AppendEdges(g: Index, p: Path, r: Path)
    requires p in g && r !in g[p].imports
    ensures Edges(g[p := g[p].(imports := g[p].imports + [r])]) == Edges(g) + {(p, r)}
    ensures (p, r) !in Edges(g)
  {
    var g1 := g[p := g[p].(imports := g[p].imports + [r])];
    forall e | e in Edges(g1) ensures e in Edges(g) + {(p, r)} {
      var a, b :| a in g1 && b in g1[a].imports && e == (a, b);
      if a != p || b != r { assert b in g[a].imports; }
    }
    forall e | e in Edges(g) ensures e in Edges(g1) {
      var a, b :| a in g && b in g[a].imports && e == (a, b);
      assert b in g1[a].imports;
    }
  }

  /** Lines 62-65: a directory or special entry ends its frame at once and gets no
      back-link. */
  lemma NonFileSettles(fs: Fs, cfg: Config, g: Index, x: Path, parent: Path, pending: Pending)
    requires Inv(fs, cfg, g, pending) && x in g && !fs[x].RegularFile?
    ensures Inv(fs, cfg, g, pending - {(parent, x)})
  {
    NonFileForward(fs, g, x, parent, pending);
  }

  lemma NonFileForward(fs: Fs, g: Index, x: Path, parent: Path, pending: Pending)
    requires Forward(fs, g, pending) && KeysExist(fs, g) && NonFilesBare(fs, g)
    requires x in g && !fs[x].RegularFile?
    ensures Forward(fs, g, pending - {(parent, x)})
  {
    var s1 := pending - {(parent, x)};
    forall a, b | a in g && b in g[a].imports && (a, b) !in s1
      ensures b in g && b in fs && multiset(g[b].importedBy)[a] == (if fs[b].RegularFile? then 1 else 0)
    {
      if (a, b) in pending {
        assert b == x && g[x].importedBy == [];
      }
    }
  }

  /** Lines 86-96: push the parent, unchanged, onto `importedBy`, settling the edge. */
  lemma LinkPreserves(fs: Fs, cfg: Config, g: Index, x: Path, parent: Path, pending: Pending)
    requires Inv(fs, cfg, g, pending) && x in g && fs[x].RegularFile?
    requires (parent, x) in pending
    ensures var g1 := g[x := g[x].(importedBy := g[x].importedBy + [parent])];
            Inv(fs, cfg, g1, pending - {(parent, x)}) && Grows(g, g1)
  {
    LinkForward(fs, g, x, parent, pending);
    LinkBackward(g, x, parent, pending);
    LinkRest(fs, cfg, g, x, parent, pending);
  }

  lemma LinkFrame(g: Index, x: Path, parent: Path)
    requires x in g
    ensures var g1 := g[x := g[x].(importedBy := g[x].importedBy + [parent])];
            && g1.Keys == g.Keys
            && (forall p :: p in g ==> g1[p].imports == g[p].imports)
            && (forall p :: p in g && p != x ==> g1[p].importedBy == g[p].importedBy)
  {
  }

  lemma LinkForward(fs: Fs, g: Index, x: Path, parent: Path, pending: Pending)
    requires Forward(fs, g, pending) && Backward(g, pending) && KeysExist(fs, g)
    requires x in g && fs[x].RegularFile? && (parent, x) in pending
    ensures Forward(fs, g[x := g[x].(importedBy := g[x].importedBy + [parent])], pending - {(parent, x)})
  {
    var g1 := g[x := g[x].(importedBy := g[x].importedBy + [parent])];
    var s1 := pending - {(parent, x)};
    assert parent !in g[x].importedBy;
    assert multiset(g1[x].importedBy)[parent] == 1;
    forall a, b | a in g1 && b in g1[a].imports && (a, b) !in s1
      ensures b in g1 && b in fs && multiset(g1[b].importedBy)[a] == (if fs[b].RegularFile? then 1 else 0)
    {
      assert b in g[a].imports;
      if b == x && a != parent {
        assert multiset(g1[x].importedBy)[a] == multiset(g[x].importedBy)[a];
      }
    }
  }

  lemma LinkBackward(g: Index, x: Path, parent: Path, pending: Pending)
    requires Backward(g, pending) && PendingEdges(g, pending)
    requires x in g && (parent, x) in pending
    ensures Backward(g[x := g[x].(importedBy := g[x].importedBy + [parent])], pending - {(parent, x)})
  {
    var g1 := g[x := g[x].(importedBy := g[x].importedBy + [parent])];
    forall b, a | b in g1 && a in g1[b].importedBy
      ensures a in g1 && b in g1[a].imports && (a, b) !in pending - {(parent, x)}
    {
      if b != x || a != parent {
        assert a in g[b].importedBy;
      }
    }
  }

  lemma LinkRest(fs: Fs, cfg: Config, g: Index, x: Path, parent: Path, pending: Pending)
    requires Inv(fs, cfg, g, pending) && x in g && fs[x].RegularFile?
    ensures var g1 := g[x := g[x].(importedBy := g[x].importedBy + [parent])];
            && KeysExist(fs, g1) && ImportsDistinct(fs, g1) && ImportsPrefix(fs, cfg, g1)
            && NonFilesBare(fs, g1) && PendingEdges(g1, pending - {(parent, x)}) && Grows(g, g1)
  {
    var g1 := g[x := g[x].(importedBy := g[x].importedBy + [parent])];
    assert forall p :: p in g1 ==> p in g && g1[p].imports == g[p].imports;
    assert ImportsPrefix(fs, cfg, g1) by {
      forall p | p in g1 && fs[p].RegularFile? ensures g1[p].imports <= Expected(fs, cfg, p) {
        assert g1[p].imports == g[p].imports;
      }
    }
    assert NonFilesBare(fs, g1) by {
      forall p | p in g1 && !fs[p].RegularFile? ensures g1[p].imports == [] && g1[p].importedBy == [] {
        assert p != x && g1[p] == g[p];
      }
    }
  }

  /** Two prefixes of one sequence: the shorter is a prefix of the longer. */
  lemma PrefixesOfOne<T>(a: seq<T>, b: seq<T>, c: seq<T>)
    requires a <= c && b <= c && |a| <= |b|
    ensures a <= b
  {
    assert forall i :: 0 <= i < |a| ==> a[i] == c[i] == b[i];
  }

  /** The loop of lines 73-83 at reference `i`: whatever a re-entrant `addFile` did to
      this node, its imports stay between the list for the references seen so far and
      the completed list, and a reference is appended only when the list is exactly the
      one for the references seen so far. */
  lemma LoopStep(fs: Fs, cfg: Config, file: Path, i: nat, imports: seq<Path>)
    requires file in fs && fs[file].RegularFile? && i < |fs[file].references|
    requires ImportsUpTo(fs, cfg, file, i) <= imports <= Expected(fs, cfg, file)
    ensures var rs := Resolutions(fs, cfg, file, fs[file].references);
            (rs[i].None? || rs[i].value in imports) ==> ImportsUpTo(fs, cfg, file, i + 1) <= imports
    ensures var rs := Resolutions(fs, cfg, file, fs[file].references);
            rs[i].Some? && rs[i].value !in imports ==>
              imports + [rs[i].value] == ImportsUpTo(fs, cfg, file, i + 1)
    ensures ImportsUpTo(fs, cfg, file, i + 1) <= Expected(fs, cfg, file)
  {
    var rs := Resolutions(fs, cfg, file, fs[file].references);
    ImportsStep(fs, cfg, file, i);
    ImportsMonotone(fs, cfg, file, i + 1, |fs[file].references|);
    PrefixStep(ImportsUpTo(fs, cfg, file, i), ImportsUpTo(fs, cfg, file, i + 1),
               Expected(fs, cfg, file), imports, rs[i]);
  }

  /** The same step on plain sequences: `d` the list before a resolution `o`, `d1` the
      list after it, both prefixes of `full`, and `imports` in between `d` and `full`. */
  lemma PrefixStep(d: seq<Path>, d1: seq<Path>, full: seq<Path>, imports: seq<Path>, o: Option<Path>)
    requires d <= imports <= full && d1 <= full
    requires d1 == if o.Some? && o.value !in d then d + [o.value] else d
    ensures (o.None? || o.value in imports) ==> d1 <= imports
    ensures o.Some? && o.value !in imports ==> imports + [o.value] == d1
  {
    if o.Some? && o.value !in d {
      var r := o.value;
      assert full[|d|] == r;
      if r in imports {
        var k :| 0 <= k < |imports| && imports[k] == r;
        assert forall t :: 0 <= t < |d| ==> imports[t] in d;
        PrefixesOfOne(d1, imports, full);
      } else {
        assert imports == d;
      }
    }
  }

  // ---------------------------------------------------------------- addFile

  /** `addFile(x, parent)` (lines 54-97), `parent` "" at the top level. `pending`
      holds the edges of the frames still running above this one. */
  function AddFileFrom(fs: Fs, cfg: Config, g: Index, x: Path, parent: Path, ghost pending: Pending): (r: Index)
    requires WellFormed(fs) && x in fs && Inv(fs, cfg, g, pending)
    requires parent == "" || (parent, x) in pending
    ensures Inv(fs, cfg, r, pending - {(parent, x)})
    ensures Grows(g, r) && Finished(fs, cfg, r, x) && NewFinished(fs, cfg, g, r)
    ensures CreatedUnder(g, r, x)
    decreases Measure(fs, g), 1, 0, 1
  {
    CreatePreserves(fs, cfg, g, x, pending);
    var g1 := if x in g then g else g[x := Node([], [])];
    if !fs[x].RegularFile? then
      NonFileSettles(fs, cfg, g1, x, parent, pending);
      FrameCreatedUnder(g, g1, g1, x);
      g1
    else
      var r := AddRegularFile(fs, cfg, g1, x, parent, pending);
      GrowsTrans(g, g1, r);
      CreatedFinished(fs, cfg, g, g1, r, x);
      FrameCreatedUnder(g, g1, r, x);
      r
  }

  /** Lines 67-96 for a regular file already in the index: read it, walk its
      references, then push the back-link to `parent`. */
  function AddRegularFile(fs: Fs, cfg: Config, g: Index, x: Path, parent: Path, ghost pending: Pending): (r: Index)
    requires WellFormed(fs) && x in g && x in fs && fs[x].RegularFile? && Inv(fs, cfg, g, pending)
    requires parent == "" || (parent, x) in pending
    ensures Inv(fs, cfg, r, pending - {(parent, x)})
    ensures Grows(g, r) && Finished(fs, cfg, r, x) && NewFinished(fs, cfg, g, r)
    ensures CreatedUnder(g, r, x)
    decreases Measure(fs, g), 1, 0, 0
  {
    NothingReadYet(fs, cfg, x);
    var g2 := AddImports(fs, cfg, g, x, 0, pending);
    var r := LinkParent(fs, cfg, g2, x, parent, pending);
    GrowsTrans(g, g2, r);
    SameKeysUnder(g, g2, r, x);
    r
  }

  /** Lines 86-96: with a parent, push it unchanged onto `importedBy`. */
  function LinkParent(fs: Fs, cfg: Config, g: Index, x: Path, parent: Path, ghost pending: Pending): (r: Index)
    requires WellFormed(fs) && x in g && x in fs && fs[x].RegularFile? && Inv(fs, cfg, g, pending)
    requires parent == "" || (parent, x) in pending
    ensures Inv(fs, cfg, r, pending - {(parent, x)})
    ensures Grows(g, r) && r.Keys == g.Keys
    ensures forall p :: p in g ==> r[p].imports == g[p].imports
    ensures forall p :: p in g && p != x ==> r[p].importedBy == g[p].importedBy
    ensures r[x].importedBy == if parent == "" then g[x].importedBy else g[x].importedBy + [parent]
  {
    if parent == "" then
      assert (parent, x) !in pending;
      RemoveAbsent(pending, (parent, x));
      g
    else
      LinkPreserves(fs, cfg, g, x, parent, pending);
      LinkFrame(g, x, parent);
      g[x := g[x].(importedBy := g[x].importedBy + [parent])]
  }

  /** The loop of lines 73-83 from reference `i` on: resolve, skip what is unresolved
      or already imported, otherwise append and recurse. */
  function AddImports(fs: Fs, cfg: Config, g: Index, file: Path, i: nat, ghost pending: Pending): (r: Index)
    requires WellFormed(fs) && Inv(fs, cfg, g, pending)
    requires file in g && file in fs && fs[file].RegularFile? && i <= |fs[file].references|
    requires ImportsUpTo(fs, cfg, file, i) <= g[file].imports
    ensures Inv(fs, cfg, r, pending)
    ensures Grows(g, r) && NewFinished(fs, cfg, g, r)
    ensures r[file].imports == Expected(fs, cfg, file)
    ensures CreatedUnder(g, r, file)
    decreases Measure(fs, g), 0, |fs[file].references| - i, 1
  {
    var refs := fs[file].references;
    if i == |refs| then
      PrefixesOfOne(Expected(fs, cfg, file), g[file].imports, Expected(fs, cfg, file));
      g
    else
      var resolved := ResolveFilePath(fs, refs[i], SearchDirs(cfg, file), cfg.extensions, file);
      assert resolved == Resolutions(fs, cfg, file, refs)[i];
      LoopStep(fs, cfg, file, i, g[file].imports);
      if resolved.None? || resolved.value in g[file].imports then
        AddImports(fs, cfg, g, file, i + 1, pending)
      else
        AddChild(fs, cfg, g, file, i, resolved.value, pending)
  }

  /** Lines 80-81: a reference resolved to a path not yet imported is appended, added
      recursively with this file as parent, and the loop goes on. */
  function AddChild(fs: Fs, cfg: Config, g: Index, file: Path, i: nat, child: Path, ghost pending: Pending): (r: Index)
    requires WellFormed(fs) && Inv(fs, cfg, g, pending)
    requires file in g && file in fs && fs[file].RegularFile? && i < |fs[file].references|
    requires child in fs && child !in g[file].imports
    requires g[file].imports + [child] == ImportsUpTo(fs, cfg, file, i + 1)
    requires ImportsUpTo(fs, cfg, file, i + 1) <= Expected(fs, cfg, file)
    ensures Inv(fs, cfg, r, pending)
    ensures Grows(g, r) && NewFinished(fs, cfg, g, r)
    ensures r[file].imports == Expected(fs, cfg, file)
    ensures CreatedUnder(g, r, file)
    decreases Measure(fs, g), 0, |fs[file].references| - i, 0
  {
    AppendPreserves(fs, cfg, g, file, child, pending);
    var g1 := g[file := g[file].(imports := g[file].imports + [child])];
    var g2 := AddFileFrom(fs, cfg, g1, child, file, pending + {(file, child)});
    AddThenRemove(pending, (file, child));
    GrowsMeasure(fs, g1, g2);
    var r := AddImports(fs, cfg, g2, file, i + 1, pending);
    GrowsTrans(g, g1, g2);
    GrowsTrans(g, g2, r);
    NewFinishedTrans(fs, cfg, g1, g2, r);
    NewFinishedTrans(fs, cfg, g, g1, r);
    ChildCreatedUnder(g, g1, g2, r, file, child);
    r
  }

  /** A frame that creates at most `x` itself, and below it only `x`'s transitive
      imports, creates only `x`'s transitive imports. */
  lemma FrameCreatedUnder(g: Index, g1: Index, r: Index, x: Path)
    requires forall p :: p in g1 && p !in g ==> p == x
    requires Grows(g1, r) && CreatedUnder(g1, r, x)
    ensures CreatedUnder(g, r, x)
  {
    forall p | p in r && p !in g ensures Reaches(r, x, p) {
      if p == x { ReachesSelf(r, x); }
    }
  }

  /** Pushing the back-link creates no node. */
  lemma SameKeysUnder(g: Index, g2: Index, r: Index, x: Path)
    requires CreatedUnder(g, g2, x) && Grows(g2, r) && r.Keys == g2.Keys
    ensures CreatedUnder(g, r, x)
  {
    forall p | p in r && p !in g ensures Reaches(r, x, p) {
      ReachesGrows(g2, r, x, p);
    }
  }

  /** What the child's `addFile` created hangs below the child, which `file` imports;
      what the rest of the loop created hangs below `file`. */
  lemma ChildCreatedUnder(g: Index, g1: Index, g2: Index, r: Index, file: Path, child: Path)
    requires forall p :: p in g1 ==> p in g
    requires file in g1 && child in g1[file].imports
    requires Grows(g1, g2) && Grows(g2, r)
    requires CreatedUnder(g1, g2, child) && CreatedUnder(g2, r, file)
    ensures CreatedUnder(g, r, file)
  {
    InPrefix(g1[file].imports, g2[file].imports, child);
    ReachesEdge(g2, file, child);
    forall p | p in r && p !in g ensures Reaches(r, file, p) {
      if p in g2 {
        ReachesTrans(g2, file, child, p);
        ReachesGrows(g2, r, file, p);
      }
    }
  }

  /** The only node a frame creates itself is `x`. */
  lemma CreatedFinished(fs: Fs, cfg: Config, g: Index, g1: Index, r: Index, x: Path)
    requires forall p :: p in g1 && p !in g ==> p == x
    requires NewFinished(fs, cfg, g1, r) && Finished(fs, cfg, r, x)
    ensures NewFinished(fs, cfg, g, r)
  {
  }

  /** Before the loop no reference has been read. */
  lemma NothingReadYet(fs: Fs, cfg: Config, file: Path)
    requires file in fs && fs[file].RegularFile?
    ensures ImportsUpTo(fs, cfg, file, 0) == []
  {
    assert Resolutions(fs, cfg, file, fs[file].references)[..0] == [];
  }

  /** `graph.addFile(path)` from outside (no parent): `x` ends up in the index with
      its imports complete, and so does every node the call created. */
  function AddFile(fs: Fs, cfg: Config, g: Index, x: Path): (r: Index)
    requires WellFormed(fs) && x in fs && Inv(fs, cfg, g, {})
    ensures Inv(fs, cfg, r, {}) && Grows(g, r)
    ensures Finished(fs, cfg, r, x) && NewFinished(fs, cfg, g, r)
    ensures AllFinished(fs, cfg, g) ==> AllFinished(fs, cfg, r)
    ensures forall p :: p in r && p !in g ==> Reaches(r, x, p)
  {
    RemoveAbsent({}, ("", x));
    var r := AddFileFrom(fs, cfg, g, x, "", {});
    FinishedKept(fs, cfg, g, r);
    r
  }

  lemma FinishedKept(fs: Fs, cfg: Config, g: Index, r: Index)
    requires NewFinished(fs, cfg, g, r) && Grows(g, r) && KeysExist(fs, r) && ImportsPrefix(fs, cfg, r)
    ensures AllFinished(fs, cfg, g) ==> AllFinished(fs, cfg, r)
  {
    if AllFinished(fs, cfg, g) {
      forall p | p in r ensures Finished(fs, cfg, r, p) {
        if p in g { FinishedPersists(fs, cfg, g, r, p); }
      }
    }
  }

  /** The seed loop of `init` (lines 40-45): add every path the glob returned, in
      order; nothing at all without a graph directory. */
  function Init(fs: Fs, cfg: Config, g: Index, seeds: seq<Path>): (r: Index)
    requires WellFormed(fs) && Inv(fs, cfg, g, {})
    requires forall s :: s in seeds ==> s in fs
    ensures Inv(fs, cfg, r, {}) && Grows(g, r)
    ensures cfg.dir == "" ==> r == g
    ensures cfg.dir != "" ==> forall s :: s in seeds ==> Finished(fs, cfg, r, s)
    ensures AllFinished(fs, cfg, g) ==> AllFinished(fs, cfg, r)
    ensures forall p :: p in r && p !in g ==> exists s :: s in seeds && Reaches(r, s, p)
  {
    if cfg.dir == "" then g else AddAll(fs, cfg, g, seeds)
  }

  function AddAll(fs: Fs, cfg: Config, g: Index, seeds: seq<Path>): (r: Index)
    requires WellFormed(fs) && Inv(fs, cfg, g, {})
    requires forall s :: s in seeds ==> s in fs
    ensures Inv(fs, cfg, r, {}) && Grows(g, r)
    ensures forall s :: s in seeds ==> Finished(fs, cfg, r, s)
    ensures AllFinished(fs, cfg, g) ==> AllFinished(fs, cfg, r)
    ensures forall p :: p in r && p !in g ==> exists s :: s in seeds && Reaches(r, s, p)
    decreases |seeds|
  {
    if seeds == [] then g
    else
      var g1 := AddFile(fs, cfg, g, seeds[0]);
      var r := AddAll(fs, cfg, g1, seeds[1..]);
      FinishedPersists(fs, cfg, g1, r, seeds[0]);
      GrowsTrans(g, g1, r);
      assert forall s :: s in seeds ==> s == seeds[0] || s in seeds[1..];
      SeedsCreatedUnder(g, g1, r, seeds);
      r
  }

  /** What the first seed created hangs below it; what the later seeds created hangs
      below one of them. */
  lemma SeedsCreatedUnder(g: Index, g1: Index, r: Index, seeds: seq<Path>)
    requires seeds != [] && Grows(g1, r)
    requires forall p :: p in g1 && p !in g ==> Reaches(g1, seeds[0], p)
    requires forall p :: p in r && p !in g1 ==> exists s :: s in seeds[1..] && Reaches(r, s, p)
    ensures forall p :: p in r && p !in g ==> exists s :: s in seeds && Reaches(r, s, p)
  {
    forall p | p in r && p !in g ensures exists s :: s in seeds && Reaches(r, s, p) {
      if p in g1 {
        ReachesGrows(g1, r, seeds[0], p);
      } else {
        var s :| s in seeds[1..] && Reaches(r, s, p);
      }
    }
  }

  // ---------------------------------------------------------------- the settled graph

  /** What `addFile` and `init` leave behind when they start from an empty index: every
      edge mirrored, every node finished. */
  ghost predicate Settled(fs: Fs, cfg: Config, g: Index) {
    Inv(fs, cfg, g, {}) && AllFinished(fs, cfg, g)
  }

  /** In a settled index: a regular file imports exactly the paths its references
      resolve to; a directory or special entry has no edges; every import is itself a
      node; for every regular file `q` in `p.imports`, `p` occurs exactly once in
      `q.importedBy`, a non-file `q` gets no back-link, and every back-link comes from
      such an import. */
  lemma SettledIndex(fs: Fs, cfg: Config, g: Index, p: Path, q: Path)
    requires Settled(fs, cfg, g) && p in g
    ensures fs[p].RegularFile? ==>
              var rs := Resolutions(fs, cfg, p, fs[p].references);
              (q in g[p].imports <==> exists i :: 0 <= i < |rs| && rs[i] == Some(q))
    ensures fs[p].RegularFile? ==> NoDup(g[p].imports)
    ensures !fs[p].RegularFile? ==> g[p].imports == [] && g[p].importedBy == []
    ensures q in g[p].imports ==>
              q in g && multiset(g[q].importedBy)[p] == (if fs[q].RegularFile? then 1 else 0)
    ensures q in g && p in g[q].importedBy ==> q in g[p].imports
  {
    assert Finished(fs, cfg, g, p);
    if fs[p].RegularFile? {
      ExpectedImports(fs, cfg, p, q, q);
    }
  }

  /** Adding again a path the index already holds, with no parent, changes nothing
      once the index is settled: the file is read again but every reference resolves to
      a path already imported. */
  lemma AddFileAgainNoop(fs: Fs, cfg: Config, g: Index, x: Path)
    requires WellFormed(fs) && Settled(fs, cfg, g) && x in g
    ensures AddFile(fs, cfg, g, x) == g
  {
    assert Finished(fs, cfg, g, x);
    RemoveAbsent({}, ("", x));
    AddFileFromNoop(fs, cfg, g, x);
  }

  /** Running the seed loop again over paths already indexed changes nothing. */
  lemma {:induction false} AddAllAgainNoop(fs: Fs, cfg: Config, g: Index, seeds: seq<Path>)
    requires WellFormed(fs) && Settled(fs, cfg, g)
    requires forall s :: s in seeds ==> s in g
    ensures AddAll(fs, cfg, g, seeds) == g
    decreases |seeds|
  {
    if seeds != [] {
      AddFileAgainNoop(fs, cfg, g, seeds[0]);
      AddAllAgainNoop(fs, cfg, g, seeds[1..]);
    }
  }

  lemma AddFileFromNoop(fs: Fs, cfg: Config, g: Index, x: Path)
    requires WellFormed(fs) && Inv(fs, cfg, g, {}) && x in g && Finished(fs, cfg, g, x)
    ensures AddFileFrom(fs, cfg, g, x, "", {}) == g
  {
    if fs[x].RegularFile? {
      AddRegularFileNoop(fs, cfg, g, x);
    }
  }

  lemma AddRegularFileNoop(fs: Fs, cfg: Config, g: Index, x: Path)
    requires WellFormed(fs) && Inv(fs, cfg, g, {}) && x in g && x in fs && fs[x].RegularFile?
    requires g[x].imports == Expected(fs, cfg, x)
    ensures AddRegularFile(fs, cfg, g, x, "", {}) == g
  {
    NothingReadYet(fs, cfg, x);
    AddImportsNoop(fs, cfg, g, x, 0, {});
  }

  lemma {:induction false} AddImportsNoop(fs: Fs, cfg: Config, g: Index, file: Path, i: nat, pending: Pending)
    requires WellFormed(fs) && Inv(fs, cfg, g, pending)
    requires file in g && file in fs && fs[file].RegularFile? && i <= |fs[file].references|
    requires ImportsUpTo(fs, cfg, file, i) <= g[file].imports == Expected(fs, cfg, file)
    ensures AddImports(fs, cfg, g, file, i, pending) == g
    decreases |fs[file].references| - i
  {
    var refs := fs[file].references;
    if i < |refs| {
      var rs := Resolutions(fs, cfg, file, refs);
      if rs[i].Some? {
        ExpectedImports(fs, cfg, file, rs[i].value, rs[i].value);
      }
      ImportsMonotone(fs, cfg, file, i + 1, |refs|);
      AddImportsNoop(fs, cfg, g, file, i + 1, pending);
    }
  }

  lemma GrowsTrans(a: Index, b: Index, c: Index)
    requires Grows(a, b) && Grows(b, c)
    ensures Grows(a, c)
  {
  }

  lemma RemoveAbsent<T>(s: set<T>, e: T)
    requires e !in s
    ensures s - {e} == s
  {
  }

  lemma AddThenRemove<T>(s: set<T>, e: T)
    requires e !in s
    ensures s + {e} - {e} == s
  {
  }
}

=== FILE: import_parser.dfy ===
/** lib/import-parser.js: choosing the syntax regex, stripping comments, and pulling
    every quoted run out of each syntax match. The four built-in syntax regexes are
    kept opaque: a caller-supplied `exec` stands for "every successive match of a
    global regex in a text". */
module ImportParser {
  import opened Common
  import opened Paths

  // ---------------------------------------------------------------- patterns

  /** A syntax regex: one of the four built-in ones, or a caller's `RegExp`. */
  datatype SyntaxRegExp =
    | Es6Import          // ES6_IMPORT_REGEXP
    | ScssImport         // SCSS_IMPORT_REGEXP
    | CommonJsRequire    // COMMONJS_REQUIRE_REGEXP
    | AllJs              // ALL_JS_REGEXP
    | Custom(source: string, global: bool)

  /** The JavaScript value handed to `init`. */
  datatype PatternValue =
    | Undefined
    | Text(name: string)
    | RegExpValue(re: SyntaxRegExp)
    | OtherValue(truthy: bool)   // a number, boolean, object, null…

  /** The parser object; a fresh one holds `undefined`. */
  datatype Parser = Parser(dependencyPattern: PatternValue)

  const ES6_IMPORT_NAME := "es6"
  const SCSS_IMPORT_NAME := "scss"
  const COMMONJS_REQUIRE_NAME := "commonjs"
  const ALL_JS_NAME := "js"

  /** JavaScript truthiness of the value handed to `init`. */
  predicate Truthy(v: PatternValue): (b: bool)
    ensures v.Undefined? ==> !b
    ensures v.Text? ==> (b <==> v.name != "")
    ensures v.RegExpValue? ==> b
  {
    match v
    case Undefined => false
    case Text(name) => name != ""
    case RegExpValue(_) => true
    case OtherValue(t) => t
  }

  function NewParser(): Parser {
    Parser(Undefined)
  }

  /** `init(dependencyPattern)`: a falsy pattern becomes `'js'`. */
  function Init(pattern: PatternValue): (p: Parser)
    ensures Truthy(pattern) ==> p.dependencyPattern == pattern
    ensures !Truthy(pattern) ==> p.dependencyPattern == Text(ALL_JS_NAME)
    ensures Truthy(p.dependencyPattern)
  {
    Parser(if Truthy(pattern) then pattern else Text(ALL_JS_NAME))
  }

  /** The `syntaxRegExp` getter: the three names select their own regex, any other
      string (`'js'` included) the combined one, a `RegExp` itself, anything else the
      combined one. */
  function SyntaxRegExpOf(p: Parser): (r: SyntaxRegExp)
    ensures r.Custom? <==> p.dependencyPattern.RegExpValue? && p.dependencyPattern.re.Custom?
    ensures p.dependencyPattern.RegExpValue? ==> r == p.dependencyPattern.re
    ensures !p.dependencyPattern.RegExpValue? ==> r in {Es6Import, ScssImport, CommonJsRequire, AllJs}
  {
    match p.dependencyPattern
    case Text(name) =>
      if name == ES6_IMPORT_NAME then Es6Import
      else if name == SCSS_IMPORT_NAME then ScssImport
      else if name == COMMONJS_REQUIRE_NAME then CommonJsRequire
      else AllJs
    case RegExpValue(re) => re
    case _ => AllJs
  }

  /** What `init` followed by the getter selects, for every value passed to `init`:
      the combined regex unless one of the three names or a `RegExp` was given. */
  lemma InitSelects(pattern: PatternValue)
    ensures var r := SyntaxRegExpOf(Init(pattern));
            && (r == Es6Import <==> pattern == Text("es6") || pattern == RegExpValue(Es6Import))
            && (r == ScssImport <==> pattern == Text("scss") || pattern == RegExpValue(ScssImport))
            && (r == CommonJsRequire <==> pattern == Text("commonjs") || pattern == RegExpValue(CommonJsRequire))
            && (r == AllJs <==> !(pattern.Text? && pattern.name in {"es6", "scss", "commonjs"})
                                && (pattern.RegExpValue? ==> pattern.re == AllJs))
            && (pattern.RegExpValue? ==> r == pattern.re)
  {
  }

  /** A parser on which `init` was never called uses the combined regex. */
  lemma FreshParserSelectsAllJs()
    ensures SyntaxRegExpOf(NewParser()) == AllJs
  {
  }

  // ---------------------------------------------------------------- comments

  // End (exclusive) of the shortest `*/` closing a block comment whose content
  // ends at `k - 1`; the content must not cross a line terminator (`.+?`).
  function CloseBlock(s: string, k: nat): (r: Option<nat>)
    requires 1 <= k <= |s|
    ensures r.Some? ==> k + 2 <= r.value <= |s| && s[r.value - 2] == '*' && s[r.value - 1] == '/'
    decreases |s| - k
  {
    if IsLineTerminator(s[k - 1]) then None
    else if k + 2 > |s| then None
    else if s[k] == '*' && s[k + 1] == '/' then Some(k + 2)
    else CloseBlock(s, k + 1)
  }

  // End of the comment `COMMENTS_REGEXP` matches at the start of `s`, if any:
  // first `/*` + at least one character + `*/` on one line, else `//` and the rest
  // of the line, but only when a `\n` or `\r` follows (the look-ahead `(?=[\n\r])`).
  function CommentAt(s: string): (r: Option<nat>)
    ensures r.Some? ==> 2 <= r.value <= |s| && s[0] == '/'
  {
    if |s| >= 3 && s[0] == '/' && s[1] == '*' then CloseBlock(s, 3)
    else if |s| >= 2 && s[0] == '/' && s[1] == '/' then
      var j := LineEnd(s, 2);
      if j < |s| && (s[j] == '\n' || s[j] == '\r') then Some(j) else None
    else None
  }

  /** The first line terminator at or after `j`, or `|s|`. */
  function LineEnd(s: string, j: nat): (r: nat)
    requires j <= |s|
    ensures j <= r <= |s|
    ensures r < |s| ==> IsLineTerminator(s[r])
    ensures forall i :: j <= i < r ==> !IsLineTerminator(s[i])
    decreases |s| - j
  {
    if j == |s| || IsLineTerminator(s[j]) then j else LineEnd(s, j + 1)
  }

  /** `String(content).replace(COMMENTS_REGEXP, '')`: scan left to right, deleting
      each comment where it starts. */
  function StripComments(s: string): (r: string)
    ensures |r| <= |s|
    ensures forall i :: 0 <= i < |r| ==> r[i] in s
  {
    if |s| == 0 then ""
    else
      match CommentAt(s)
      case Some(e) => StripComments(s[e..])
      case None => [s[0]] + StripComments(s[1..])
  }

  /** Text without a `/` anywhere but its last character is left alone. */
  lemma {:induction false} StripNoComment(s: string)
    requires forall i :: 0 <= i < |s| - 1 ==> s[i] != '/'
    ensures StripComments(s) == s
  {
    if |s| > 0 {
      assert CommentAt(s).None?;
      StripNoComment(s[1..]);
      assert s == [s[0]] + s[1..];
    }
  }

  /** A `//` comment followed by a line break is removed up to the break. */
  lemma LineCommentRemoved(t: string, nl: char, u: string)
    requires forall i :: 0 <= i < |t| ==> !IsLineTerminator(t[i])
    requires nl == '\n' || nl == '\r'
    ensures StripComments("//" + t + [nl] + u) == [nl] + StripComments(u)
  {
    var s := "//" + t + [nl] + u;
    assert s[2 + |t|] == nl;
    assert forall i :: 2 <= i < 2 + |t| ==> s[i] == t[i - 2];
    LineEndIs(s, 2, 2 + |t|);
    assert CommentAt(s) == Some(2 + |t|);
    var rest := s[2 + |t|..];
    assert rest == [nl] + u;
    assert CommentAt(rest).None?;
    assert rest[1..] == u;
  }

  /** On an unterminated last line a `//` comment survives. */
  lemma UnterminatedLineCommentKept(t: string)
    requires forall i :: 0 <= i < |t| ==> !IsLineTerminator(t[i]) && t[i] != '/'
    ensures StripComments("//" + t) == "//" + t
  {
    FirstSlashKept(t);
    SlashKept(t);
    assert "/" + ("/" + t) == "//" + t;
  }

  lemma FirstSlashKept(t: string)
    requires forall i :: 0 <= i < |t| ==> !IsLineTerminator(t[i])
    ensures StripComments("//" + t) == "/" + StripComments("/" + t)
  {
    var s := "//" + t;
    NoLineBreakAfter(t);
    KeptFirst(s);
    assert s[0] == '/' && s[1..] == "/" + t;
  }

  /** A lone `/` before text without a `/` is kept along with the text. */
  lemma SlashKept(t: string)
    requires forall i :: 0 <= i < |t| ==> t[i] != '/'
    ensures StripComments("/" + t) == "/" + t
  {
    var s1 := "/" + t;
    NoCloseAfter(t);
    KeptFirst(s1);
    assert s1[1..] == t;
    StripNoComment(t);
  }

  /** `//` with no line break after it opens no comment. */
  lemma NoLineBreakAfter(t: string)
    requires forall i :: 0 <= i < |t| ==> !IsLineTerminator(t[i])
    ensures CommentAt("//" + t).None?
  {
    var s := "//" + t;
    assert forall i :: 2 <= i < |s| ==> s[i] == t[i - 2];
    LineEndIs(s, 2, |s|);
  }

  /** `/` followed by text without a `/` opens no comment. */
  lemma NoCloseAfter(t: string)
    requires forall i :: 0 <= i < |t| ==> t[i] != '/'
    ensures CommentAt("/" + t).None?
  {
    var s1 := "/" + t;
    assert forall i :: 1 <= i < |s1| ==> s1[i] == t[i - 1];
    if |s1| >= 3 && s1[1] == '*' {
      BlockNeverCloses(s1, 3);
    }
  }

  /** A first character that opens no comment is kept. */
  lemma KeptFirst(s: string)
    requires |s| > 0 && CommentAt(s).None?
    ensures StripComments(s) == [s[0]] + StripComments(s[1..])
  {
  }

  // A `/*…*/` comment on one line is removed, whatever it holds short of a `*/`.
  lemma BlockCommentRemoved(t: string, u: string)
    requires |t| > 0
    requires forall i :: 0 <= i < |t| ==> !IsLineTerminator(t[i])
    requires forall i :: 0 <= i < |t| - 1 ==> !(t[i] == '*' && t[i + 1] == '/')
    ensures StripComments("/*" + t + "*/" + u) == StripComments(u)
  {
    var s := "/*" + t + "*/" + u;
    assert forall i :: 2 <= i < 2 + |t| ==> s[i] == t[i - 2];
    assert s[2 + |t|] == '*' && s[3 + |t|] == '/';
    forall i | 3 <= i < 2 + |t| ensures !(s[i] == '*' && s[i + 1] == '/') {
      if i + 1 < 2 + |t| { assert s[i] == t[i - 2] && s[i + 1] == t[i - 1]; }
    }
    CloseBlockFinds(s, 3, 2 + |t|);
    assert s[4 + |t|..] == u;
  }

  // A `/*…*/` comment spanning a line break is kept.
  lemma MultiLineBlockCommentKept(t: string, m: nat)
    requires m < |t| && IsLineTerminator(t[m])
    requires forall i :: 0 <= i < |t| ==> t[i] != '/'
    ensures StripComments("/*" + t + "*/") == "/*" + t + "*/"
  {
    var s := "/*" + t + "*/";
    assert forall i :: 2 <= i < 2 + |t| ==> s[i] == t[i - 2];
    CloseBlockStopsAtBreak(s, 3, 2 + m);
    assert CommentAt(s).None?;
    StripNoComment(s[1..]);
    assert s == [s[0]] + s[1..];
  }

  lemma {:induction false} LineEndIs(s: string, j: nat, e: nat)
    requires j <= e <= |s|
    requires e < |s| ==> IsLineTerminator(s[e])
    requires forall i :: j <= i < e ==> !IsLineTerminator(s[i])
    ensures LineEnd(s, j) == e
    decreases e - j
  {
    if j < e { LineEndIs(s, j + 1, e); }
  }

  lemma {:induction false} CloseBlockFinds(s: string, k: nat, e: nat)
    requires 1 <= k <= e && e + 2 <= |s| && s[e] == '*' && s[e + 1] == '/'
    requires forall i :: k - 1 <= i < e ==> !IsLineTerminator(s[i])
    requires forall i :: k <= i < e ==> !(s[i] == '*' && s[i + 1] == '/')
    ensures CloseBlock(s, k) == Some(e + 2)
    decreases e - k
  {
    if k < e {
      CloseBlockFinds(s, k + 1, e);
    }
  }

  lemma {:induction false} CloseBlockStopsAtBreak(s: string, k: nat, m: nat)
    requires 1 <= k && k - 1 <= m && m + 1 < |s| && IsLineTerminator(s[m])
    requires forall i :: k - 1 <= i <= m + 1 ==> s[i] != '/'
    ensures CloseBlock(s, k) == None
    decreases m - (k - 1)
  {
    if !IsLineTerminator(s[k - 1]) && k + 2 <= |s| {
      assert s[k + 1] != '/';
      CloseBlockStopsAtBreak(s, k + 1, m);
    }
  }

  lemma {:induction false} BlockNeverCloses(s: string, k: nat)
    requires 1 <= k <= |s|
    requires forall i :: k <= i < |s| ==> s[i] != '/'
    ensures CloseBlock(s, k) == None
    decreases |s| - k
  {
    if !IsLineTerminator(s[k - 1]) && k + 2 <= |s| {
      BlockNeverCloses(s, k + 1);
    }
  }

  // ---------------------------------------------------------------- quotes

  predicate IsQuote(c: char) {
    c == '"' || c == '\''
  }

  /** Text without a quote character of either kind. */
  predicate QuoteFree(s: string) {
    forall i :: 0 <= i < |s| ==> !IsQuote(s[i])
  }

  /** What one `QUOTE_REGEXP` capture can be: non-empty, on one line, with no quote
      after its first character. */
  predicate WellQuoted(x: string) {
    |x| > 0 &&
    (forall i :: 0 <= i < |x| ==> !IsLineTerminator(x[i])) &&
    (forall i :: 1 <= i < |x| ==> !IsQuote(x[i]))
  }

  /** The closing quote for content whose last character is `s[k - 1]` (`.+?`). */
  function CloseQuote(s: string, k: nat): (r: Option<nat>)
    requires 2 <= k <= |s|
    requires forall i :: 1 <= i < k - 1 ==> !IsLineTerminator(s[i])
    requires forall i :: 2 <= i < k ==> !IsQuote(s[i])
    ensures r.Some? ==> k <= r.value < |s| && IsQuote(s[r.value]) && WellQuoted(s[1..r.value])
    decreases |s| - k
  {
    if IsLineTerminator(s[k - 1]) then None
    else if k == |s| then None
    else if IsQuote(s[k]) then
      Some(k)
    else
      var r := CloseQuote(s, k + 1);
      r
  }

  /** End of the quoted run `QUOTE_REGEXP` matches at the start of `s`, if any. */
  function QuotedAt(s: string): (r: Option<nat>)
    ensures r.Some? ==> 2 <= r.value < |s| && IsQuote(s[0]) && IsQuote(s[r.value])
                        && WellQuoted(s[1..r.value])
  {
    if |s| >= 2 && IsQuote(s[0]) then CloseQuote(s, 2) else None
  }

  /** Every capture of `QUOTE_REGEXP` in `s`, left to right (the inner `exec` loop). */
  function ExtractQuoted(s: string): (r: seq<string>)
    ensures forall x :: x in r ==> WellQuoted(x) && Infix(x, s)
  {
    if |s| == 0 then []
    else
      match QuotedAt(s)
      case Some(k) =>
        var rest := ExtractQuoted(s[k + 1..]);
        InfixesOfSuffix(rest, s, k + 1);
        assert OccursAt(s[1..k], s, 1);
        [s[1..k]] + rest
      case None =>
        var rest := ExtractQuoted(s[1..]);
        InfixesOfSuffix(rest, s, 1);
        rest
  }

  /** `x` occurs in `s` as a contiguous run starting at `k`. */
  predicate OccursAt(x: string, s: string, k: int) {
    0 <= k && k + |x| <= |s| && s[k..k + |x|] == x
  }

  /** `x` occurs in `s` as a contiguous run. */
  ghost predicate Infix(x: string, s: string) {
    exists k :: OccursAt(x, s, k)
  }

  lemma InfixesOfSuffix(xs: seq<string>, s: string, j: nat)
    requires j <= |s| && forall x :: x in xs ==> Infix(x, s[j..])
    ensures forall x :: x in xs ==> Infix(x, s)
  {
    forall x | x in xs ensures Infix(x, s) {
      assert OccursAt(s[j..], s, j);
      InfixTrans(x, s[j..], s);
    }
  }

  /** A run of a run of `s` is a run of `s`. */
  lemma InfixTrans(x: string, y: string, s: string)
    requires Infix(x, y) && Infix(y, s)
    ensures Infix(x, s)
  {
    var a :| OccursAt(x, y, a);
    var b :| OccursAt(y, s, b);
    assert OccursAt(x, s, b + a) by {
      forall i | 0 <= i < |x| ensures s[b + a + i] == x[i] {
        assert y[a + i] == x[i];
        assert s[b + (a + i)] == y[a + i];
      }
    }
  }

  /** `a + x + b`, with `a` and `b` any quotes (they need not match), followed by `sep`. */
  function Enquote(xs: seq<string>, a: char, b: char, sep: string): string {
    if xs == [] then "" else [a] + xs[0] + [b] + sep + Enquote(xs[1..], a, b, sep)
  }

  /** Round trip: quoting well-formed strings and extracting them gives them back,
      whatever quote opens or closes each one. */
  lemma {:induction false} ExtractEnquoted(xs: seq<string>, a: char, b: char, sep: string)
    requires IsQuote(a) && IsQuote(b)
    requires forall i :: 0 <= i < |sep| ==> !IsQuote(sep[i])
    requires forall x :: x in xs ==> WellQuoted(x)
    ensures ExtractQuoted(Enquote(xs, a, b, sep)) == xs
  {
    if xs != [] {
      ExtractFirst(xs, a, b, sep);
      ExtractEnquoted(xs[1..], a, b, sep);
      assert xs == [xs[0]] + xs[1..];
    }
  }

  /** The first quoted string comes out first, and extraction goes on with the rest. */
  lemma ExtractFirst(xs: seq<string>, a: char, b: char, sep: string)
    requires xs != [] && IsQuote(a) && IsQuote(b) && WellQuoted(xs[0])
    requires forall i :: 0 <= i < |sep| ==> !IsQuote(sep[i])
    ensures ExtractQuoted(Enquote(xs, a, b, sep)) == [xs[0]] + ExtractQuoted(Enquote(xs[1..], a, b, sep))
  {
    var rest := sep + Enquote(xs[1..], a, b, sep);
    assert Enquote(xs, a, b, sep) == [a] + xs[0] + [b] + rest;
    ExtractHead(xs[0], a, b, rest);
    SkipUnquoted(sep, Enquote(xs[1..], a, b, sep));
  }

  /** One quoted run at the front is extracted, and extraction resumes after it. */
  lemma ExtractHead(x: string, a: char, b: char, rest: string)
    requires IsQuote(a) && IsQuote(b) && WellQuoted(x)
    ensures ExtractQuoted([a] + x + [b] + rest) == [x] + ExtractQuoted(rest)
  {
    var s := [a] + x + [b] + rest;
    assert forall i :: 1 <= i < |x| + 1 ==> s[i] == x[i - 1];
    assert s[|x| + 1] == b;
    CloseQuoteFinds(s, 2, |x| + 1);
    assert s[1..|x| + 1] == x;
    assert s[|x| + 2..] == rest;
  }

  /** Text without quotes contributes nothing. */
  lemma {:induction false} SkipUnquoted(p: string, s: string)
    requires forall i :: 0 <= i < |p| ==> !IsQuote(p[i])
    ensures ExtractQuoted(p + s) == ExtractQuoted(s)
  {
    if p != [] {
      assert (p + s)[1..] == p[1..] + s;
      SkipUnquoted(p[1..], s);
    } else {
      assert p + s == s;
    }
  }

  lemma {:induction false} CloseQuoteFinds(s: string, k: nat, e: nat)
    requires 2 <= k <= e < |s| && IsQuote(s[e])
    requires forall i :: 1 <= i < e ==> !IsLineTerminator(s[i])
    requires forall i :: 2 <= i < e ==> !IsQuote(s[i])
    ensures CloseQuote(s, k) == Some(e)
    decreases e - k
  {
    if k < e { CloseQuoteFinds(s, k + 1, e); }
  }

  // ---------------------------------------------------------------- parse

  /** One match of a syntax regex: the whole match and its capture groups. A group
      that did not take part is read as the text "undefined", which holds no quote. */
  datatype Match = Match(whole: string, groups: seq<string>)

  /** `syntaxMatch[syntaxMatch.length - 1]`: the last group, or the whole match. */
  function LastGroup(m: Match): (r: string)
    ensures m.groups == [] ==> r == m.whole
    ensures m.groups != [] ==> r == m.groups[|m.groups| - 1]
  {
    if m.groups == [] then m.whole else m.groups[|m.groups| - 1]
  }

  /** The quoted runs of every match, match by match. */
  function Collect(ms: seq<Match>): (r: seq<string>)
    ensures forall x :: x in r ==> WellQuoted(x)
  {
    if ms == [] then [] else ExtractQuoted(LastGroup(ms[0])) + Collect(ms[1..])
  }

  /** What a regex engine's `exec` loop can return for `text`: each match's last group
      is a run of the text, or "undefined" for a group that took no part. */
  ghost predicate MatchesIn(ms: seq<Match>, text: string) {
    forall m :: m in ms ==> LastGroup(m) == "undefined" || Infix(LastGroup(m), text)
  }

  /** `parse(content)`: strip comments, run the selected syntax regex over what is
      left, and take every quoted run of each match's last group. A custom regex must
      be global, or the `exec` loop never ends. Every result is a run of the text
      left after comment stripping. */
  function Parse(p: Parser, content: string, exec: (SyntaxRegExp, string) -> seq<Match>): (r: seq<string>)
    requires SyntaxRegExpOf(p).Custom? ==> SyntaxRegExpOf(p).global
    requires MatchesIn(exec(SyntaxRegExpOf(p), StripComments(content)), StripComments(content))
    ensures forall x :: x in r ==> WellQuoted(x) && Infix(x, StripComments(content))
  {
    var text := StripComments(content);
    var ms := exec(SyntaxRegExpOf(p), text);
    CollectInfixes(ms, text);
    Collect(ms)
  }

  lemma {:induction false} CollectInfixes(ms: seq<Match>, text: string)
    requires MatchesIn(ms, text)
    ensures forall x :: x in Collect(ms) ==> Infix(x, text)
  {
    if ms != [] {
      var g := LastGroup(ms[0]);
      assert ms[0] in ms;
      if g == "undefined" {
        SkipUnquoted(g, "");
        assert g + "" == g;
      } else {
        forall x | x in ExtractQuoted(g) ensures Infix(x, text) {
          InfixTrans(x, g, text);
        }
      }
      assert MatchesIn(ms[1..], text) by {
        forall m | m in ms[1..] ensures m in ms { }
      }
      CollectInfixes(ms[1..], text);
    }
  }

  /** Content with no quote character gives no dependency: comment stripping adds no
      character, and a syntax match only holds text or "undefined". */
  lemma ParseQuoteFree(p: Parser, content: string, exec: (SyntaxRegExp, string) -> seq<Match>)
    requires SyntaxRegExpOf(p).Custom? ==> SyntaxRegExpOf(p).global
    requires MatchesIn(exec(SyntaxRegExpOf(p), StripComments(content)), StripComments(content))
    requires QuoteFree(content)
    ensures Parse(p, content, exec) == []
  {
    QuoteFreeKept(content);
    ParseQuoteFreeText(p, content, exec);
  }

  /** The same, once the stripped text is known to hold no quote character. */
  lemma ParseQuoteFreeText(p: Parser, content: string, exec: (SyntaxRegExp, string) -> seq<Match>)
    requires SyntaxRegExpOf(p).Custom? ==> SyntaxRegExpOf(p).global
    requires MatchesIn(exec(SyntaxRegExpOf(p), StripComments(content)), StripComments(content))
    requires QuoteFree(StripComments(content))
    ensures Parse(p, content, exec) == []
  {
    var text := StripComments(content);
    CollectQuoteFree(exec(SyntaxRegExpOf(p), text), text);
  }

  lemma QuoteFreeKept(s: string)
    requires QuoteFree(s)
    ensures QuoteFree(StripComments(s))
  {
    var r := StripComments(s);
    forall i | 0 <= i < |r| ensures !IsQuote(r[i]) {
      var j :| 0 <= j < |s| && s[j] == r[i];
    }
  }

  lemma {:induction false} CollectQuoteFree(ms: seq<Match>, text: string)
    requires MatchesIn(ms, text) && QuoteFree(text)
    ensures Collect(ms) == []
  {
    if ms != [] {
      assert ms[0] in ms;
      GroupQuoteFree(LastGroup(ms[0]), text);
      assert MatchesIn(ms[1..], text) by {
        forall m | m in ms[1..] ensures m in ms { }
      }
      CollectQuoteFree(ms[1..], text);
    }
  }

  /** A last group drawn from quote-free text, or "undefined", has no quoted run. */
  lemma GroupQuoteFree(g: string, text: string)
    requires g == "undefined" || Infix(g, text)
    requires QuoteFree(text)
    ensures ExtractQuoted(g) == []
  {
    if g != "undefined" {
      var k :| OccursAt(g, text, k);
      assert forall i :: 0 <= i < |g| ==> g[i] == text[k + i];
    }
    SkipUnquoted(g, "");
    assert g + "" == g;
  }

  /** `parse()` with no argument reads the text "undefined" and gives `[]`. */
  lemma ParseUndefined(p: Parser, exec: (SyntaxRegExp, string) -> seq<Match>)
    requires SyntaxRegExpOf(p).Custom? ==> SyntaxRegExpOf(p).global
    requires MatchesIn(exec(SyntaxRegExpOf(p), StripComments("undefined")), StripComments("undefined"))
    ensures Parse(p, "undefined", exec) == []
  {
    ParseQuoteFree(p, "undefined", exec);
  }

  /** Round trip: when the regex finds one match whose last group quotes `xs`, parsing
      gives `xs` back. */
  lemma ParseOneMatch(p: Parser, content: string, exec: (SyntaxRegExp, string) -> seq<Match>,
                      m: Match, xs: seq<string>, a: char, b: char, sep: string)
    requires SyntaxRegExpOf(p).Custom? ==> SyntaxRegExpOf(p).global
    requires MatchesIn(exec(SyntaxRegExpOf(p), StripComments(content)), StripComments(content))
    requires exec(SyntaxRegExpOf(p), StripComments(content)) == [m]
    requires IsQuote(a) && IsQuote(b) && forall i :: 0 <= i < |sep| ==> !IsQuote(sep[i])
    requires (forall x :: x in xs ==> WellQuoted(x)) && LastGroup(m) == Enquote(xs, a, b, sep)
    ensures Parse(p, content, exec) == xs
  {
    ExtractEnquoted(xs, a, b, sep);
    assert Collect([m]) == ExtractQuoted(LastGroup(m)) + Collect([]);
  }

  /** A custom regex `/customregexp(.*)/g` matching `customregexp'test16'` yields
      `test16`. */
  lemma CustomRegExpExample()
    ensures Collect([Match("customregexp'test16'", ["'test16'"])]) == ["test16"]
  {
    var m := Match("customregexp'test16'", ["'test16'"]);
    assert LastGroup(m) == ['\''] + "test16" + ['\''] + "";
    ExtractHead("test16", '\'', '\'', "");
    assert Collect([m]) == ExtractQuoted(LastGroup(m)) + Collect([]);
  }

  /** Output is ordered by syntax match: the results of earlier matches come first. */
  lemma {:induction false} CollectAppend(a: seq<Match>, b: seq<Match>)
    ensures Collect(a + b) == Collect(a) + Collect(b)
  {
    if a == [] {
      assert a + b == b;
    } else {
      assert (a + b)[0] == a[0];
      assert (a + b)[1..] == a[1..] + b;
      CollectAppend(a[1..], b);
    }
  }

  /** A match whose last group holds no quote contributes nothing. */
  lemma UnquotedMatchContributesNothing(m: Match)
    requires forall i :: 0 <= i < |LastGroup(m)| ==> !IsQuote(LastGroup(m)[i])
    ensures Collect([m]) == []
  {
    SkipUnquoted(LastGroup(m), "");
    assert LastGroup(m) + "" == LastGroup(m);
  }
}

=== FILE: paths.dfy ===
/** The few pieces of Node's `path` module the graph code relies on, on
    `/`-separated paths. `path.normalize` and `fs.realpathSync` are taken to be the
    identity: `.`/`..` segments, repeated separators and symbolic links are not
    interpreted. */
module Paths {

  type Path = string

  /** The characters JavaScript's `.` refuses to match. */
  predicate IsLineTerminator(c: char) {
    c == '\n' || c == '\r' || c == '\U{2028}' || c == '\U{2029}'
  }

  /** Position of the last occurrence of `c` in `s`, or -1 (`lastIndexOf`). */
  function LastIndex(s: string, c: char): (k: int)
    ensures -1 <= k < |s|
    ensures k >= 0 ==> s[k] == c
    ensures forall i :: k < i < |s| ==> s[i] != c
  {
    if |s| == 0 then -1
    else if s[|s| - 1] == c then |s| - 1
    else LastIndex(s[..|s| - 1], c)
  }

  /** Drops trailing separators, as `path.extname` does before it looks at the name. */
  function TrimTrailingSlashes(p: Path): (r: Path)
    ensures r <= p
    ensures |r| == 0 || r[|r| - 1] != '/'
    ensures forall i :: |r| <= i < |p| ==> p[i] == '/'
  {
    if |p| > 0 && p[|p| - 1] == '/' then TrimTrailingSlashes(p[..|p| - 1]) else p
  }

  /** The last segment of a path (`path.basename` without trailing separators). */
  function Basename(p: Path): (r: Path)
    ensures '/' !in r
    ensures |r| <= |p| && r == p[|p| - |r|..]
    ensures |r| < |p| ==> p[|p| - |r| - 1] == '/'
  {
    p[LastIndex(p, '/') + 1..]
  }

  /** `path.dirname` for a path without a trailing separator. */
  function Dirname(p: Path): (r: Path)
    ensures LastIndex(p, '/') < 0 ==> r == "."
    ensures LastIndex(p, '/') == 0 ==> r == "/"
    ensures LastIndex(p, '/') > 0 ==> r + "/" + Basename(p) == p
  {
    var k := LastIndex(p, '/');
    if k < 0 then "."
    else if k == 0 then "/"
    else
      assert p == p[..k] + "/" + p[k + 1..];
      p[..k]
  }

  /** `path.extname(p).replace('.', '')`: the text after the last dot of the last
      segment, or "" when that segment has no dot past its first character or ends
      with its last dot. */
  function Extension(p: Path): (r: string)
    ensures '.' !in r && '/' !in r
    ensures r != "" ==> DotSuffix(Basename(TrimTrailingSlashes(p)), r)
    ensures r == "" ==> NoExtension(Basename(TrimTrailingSlashes(p)))
  {
    var b := Basename(TrimTrailingSlashes(p));
    SuffixKeepsOut(b, AfterLastDot(b), '/');
    AfterLastDot(b)
  }

  lemma SuffixKeepsOut(b: string, r: string, c: char)
    requires c !in b && |r| <= |b| && r == b[|b| - |r|..]
    ensures c !in r
  {
    assert forall i :: 0 <= i < |r| ==> r[i] == b[|b| - |r| + i];
  }

  /** `r` ends the segment `b`, right after a dot that is not `b`'s first character. */
  predicate DotSuffix(b: string, r: string) {
    |r| + 2 <= |b| && b[|b| - |r| - 1] == '.' && b[|b| - |r|..] == r
  }

  /** A segment with no dot past its first character, or one that ends with a dot. */
  predicate NoExtension(b: string) {
    (|b| > 0 && b[|b| - 1] == '.') || forall i :: 0 < i < |b| ==> b[i] != '.'
  }

  /** The text after the last dot of a segment, when that dot is not its first
      character. */
  function AfterLastDot(b: string): (r: string)
    ensures '.' !in r && |r| <= |b| && r == b[|b| - |r|..]
    ensures r != "" ==> DotSuffix(b, r)
    ensures r == "" ==> NoExtension(b)
  {
    var d := LastIndex(b, '.');
    if d <= 0 then "" else b[d + 1..]
  }

  /** `path.normalize(dir + '/' + name + '.' + ext)`, normalisation taken as the identity. */
  function Candidate(dir: Path, name: string, ext: string): (r: Path)
    ensures |r| == |dir| + |name| + |ext| + 2
    ensures r[..|dir|] == dir && r[|dir|] == '/' && r[|dir| + 1..|dir| + 1 + |name|] == name
    ensures r[|r| - |ext| - 1] == '.' && r[|r| - |ext|..] == ext
  {
    dir + "/" + name + "." + ext
  }

  /** `path.join(path.dirname(p), '_' + path.basename(p))`: the underscore-prefixed
      sibling of `p` (a stylesheet "partial"). */
  function PartialOf(p: Path): (r: Path)
    ensures |r| == |p| + 1
    ensures r == p[..|p| - |Basename(p)|] + "_" + Basename(p)
  {
    var k := LastIndex(p, '/');
    p[..k + 1] + "_" + p[k + 1..]
  }

  /** `path.resolve(p)` against the working directory `cwd`, without normalisation. */
  function Absolute(cwd: Path, p: Path): (r: Path)
    ensures |p| > 0 && p[0] == '/' ==> r == p
    ensures p == "" ==> r == cwd
    ensures |p| > 0 && p[0] != '/' ==> r == cwd + "/" + p
  {
    if |p| > 0 && p[0] == '/' then p
    else if p == "" then cwd
    else cwd + "/" + p
  }

  /** ASCII lower-casing: the case folding a JavaScript `i`-flag regex applies to
      the characters this model compares. */
  function Lower(c: char): (r: char)
    ensures 'A' <= c <= 'Z' ==> 'a' <= r <= 'z' && r as int - c as int == 32
    ensures !('A' <= c <= 'Z') ==> r == c
  {
    if 'A' <= c <= 'Z' then (c as int + 32) as char else c
  }

  /** Two strings that are equal when case is ignored. */
  predicate SameIgnoringCase(a: string, b: string) {
    |a| == |b| && forall i :: 0 <= i < |a| ==> Lower(a[i]) == Lower(b[i])
  }
}

/** The filesystem as the graph code sees it through `fs.existsSync`, `fs.statSync`,
    `fs.lstatSync` and `fs.readFileSync`: a finite map from path to entry. A regular
    file is represented by the references the injected import parser returns for its
    content. */
module FileSystem {
  import opened Paths

  datatype Entry =
    | Directory
    | RegularFile(references: seq<string>)
    | Special   // neither a regular file nor a directory: socket, device, FIFO…

  type Fs = map<Path, Entry>

  /** `fs.statSync` and `fs.lstatSync` throw for the empty path, so it never names an entry. */
  predicate WellFormed(fs: Fs) {
    "" !in fs
  }
}

=== FILE: resolver.dfy ===
/** `resolveFilePath` of lib/graph.js: turns a raw reference into the first existing
    path among the candidates built from the load paths and extensions, or `false`
    (here `None`). */
module Resolver {
  import opened Common
  import opened Paths
  import opened FileSystem

  // ---------------------------------------------------------------- extension list

  /** The extensions to try for `reference` imported from `importer` ("" when absent):
      only the reference's own extension when it is configured; otherwise the
      importer's extension moved to the front when it sits after position 0. The
      caller's list is never changed, only copied. */
  function ExtensionOrder(reference: string, exts: seq<string>, importer: Path): (r: seq<string>)
    ensures Extension(reference) in exts ==> r == [Extension(reference)]
    ensures Extension(reference) !in exts ==> |r| == |exts| && multiset(r) == multiset(exts)
    ensures Extension(reference) !in exts && Preferred(exts, importer) > 0 ==>
              var k := Preferred(exts, importer);
              r[0] == Extension(importer) && exts == r[1..k + 1] + [r[0]] + r[k + 1..]
    ensures Extension(reference) !in exts && Preferred(exts, importer) <= 0 ==> r == exts
  {
    var own := Extension(reference);
    if own in exts then [own]
    else
      var k := Preferred(exts, importer);
      if k > 0 then MoveToFront(exts, k) else exts
  }

  /** A copy of `exts` with the element at `k` spliced out and put first
      (`splice(k, 1)` then `unshift`). */
  function MoveToFront(exts: seq<string>, k: nat): (r: seq<string>)
    requires k < |exts|
    ensures |r| == |exts| && r[0] == exts[k]
    ensures exts == r[1..k + 1] + [r[0]] + r[k + 1..]
    ensures multiset(r) == multiset(exts)
  {
    var before, after := exts[..k], exts[k + 1..];
    assert exts == before + [exts[k]] + after;
    var r := [exts[k]] + before + after;
    assert r[1..k + 1] == before && r[k + 1..] == after;
    assert multiset(r) == multiset{exts[k]} + multiset(before) + multiset(after);
    r
  }

  /** Position of the importer's extension in the configured list; -1 when the importer
      is absent (falsy) or its extension is not configured. */
  function Preferred(exts: seq<string>, importer: Path): (k: int)
    ensures -1 <= k < |exts|
    ensures k >= 0 ==> importer != "" && exts[k] == Extension(importer)
    ensures k >= 0 ==> forall j :: 0 <= j < k ==> exts[j] != Extension(importer)
    ensures k < 0 <==> importer == "" || Extension(importer) !in exts
  {
    if importer == "" then -1 else IndexOf(exts, Extension(importer))
  }

  // ---------------------------------------------------------------- trimming

  /** The alternatives of the group `(ext1|ext2|…)`: joining an empty list still
      leaves one empty alternative. */
  function Alternatives(exts: seq<string>): (r: seq<string>)
    ensures |r| > 0
    ensures exts == [] ==> r == [""]
    ensures exts != [] ==> r == exts
    ensures forall e :: e in r <==> e in exts || (exts == [] && e == "")
  {
    if exts == [] then [""] else exts
  }

  /** The trimming regex `(.(ext1|ext2|…))$` with flag `i` matches starting at `i`:
      one character other than a line terminator, then a configured extension up to
      the end, case ignored. The backslash before the dot is lost in the string
      literal, so the first character may be any character, not only `.`. */
  predicate TrimmableAt(name: string, i: int, exts: seq<string>) {
    0 <= i < |name| && !IsLineTerminator(name[i]) &&
    exists e :: e in Alternatives(exts) && SameIgnoringCase(name[i + 1..], e)
  }

  /** The leftmost match, so the longest matching suffix, is deleted (`String.replace`
      with a non-global regex). */
  function TrimExtension(name: string, exts: seq<string>): (r: string)
    ensures r <= name
    ensures |r| < |name| ==> TrimmableAt(name, |r|, exts)
    ensures forall i :: 0 <= i < |r| ==> !TrimmableAt(name, i, exts)
  {
    TrimFrom(name, exts, 0)
  }

  function TrimFrom(name: string, exts: seq<string>, i: nat): (r: string)
    requires i <= |name|
    requires forall j :: 0 <= j < i ==> !TrimmableAt(name, j, exts)
    ensures r <= name && i <= |r|
    ensures |r| < |name| ==> TrimmableAt(name, |r|, exts)
    ensures forall j :: 0 <= j < |r| ==> !TrimmableAt(name, j, exts)
    decreases |name| - i
  {
    if i == |name| then name
    else if TrimmableAt(name, i, exts) then name[..i]
    else TrimFrom(name, exts, i + 1)
  }

  // ---------------------------------------------------------------- search

  /** `dir/name.ext` for every extension, in order (lines 181-186). */
  function Directs(dir: Path, name: string, exts: seq<string>): (r: seq<Path>)
    ensures |r| == |exts|
    ensures forall j :: 0 <= j < |exts| ==> r[j] == Candidate(dir, name, exts[j])
  {
    if exts == [] then [] else [Candidate(dir, name, exts[0])] + Directs(dir, name, exts[1..])
  }

  /** `dir/_name.ext` for every extension, in order (lines 189-195). */
  function Partials(dir: Path, name: string, exts: seq<string>): (r: seq<Path>)
    ensures |r| == |exts|
    ensures forall j :: 0 <= j < |exts| ==> r[j] == PartialOf(Candidate(dir, name, exts[j]))
  {
    if exts == [] then [] else [PartialOf(Candidate(dir, name, exts[0]))] + Partials(dir, name, exts[1..])
  }

  /** The first path of `cs` that exists (`fs.existsSync`), or None. */
  function FirstExisting(fs: Fs, cs: seq<Path>): (r: Option<Path>)
    ensures r.None? <==> forall c :: c in cs ==> c !in fs
    ensures r.Some? ==> r.value in fs && r.value in cs &&
                        forall c :: c in cs[..IndexOf(cs, r.value)] ==> c !in fs
  {
    if cs == [] then None
    else if cs[0] in fs then
      assert IndexOf(cs, cs[0]) == 0;
      Some(cs[0])
    else
      var r := FirstExisting(fs, cs[1..]);
      if r.Some? then
        assert cs == [cs[0]] + cs[1..];
        IndexOfPrefix([cs[0]], cs[1..], r.value);
        assert cs[..IndexOf(cs, r.value)] == [cs[0]] + cs[1..][..IndexOf(cs[1..], r.value)];
        r
      else r
  }

  /** The two loops of lines 180-196: per load path, every direct candidate, then
      every partial, before the next load path. */
  function Search(fs: Fs, loadPaths: seq<Path>, name: string, exts: seq<string>): (r: Option<Path>)
    ensures r.Some? ==> r.value in fs
  {
    if loadPaths == [] then None
    else
      var direct := FirstExisting(fs, Directs(loadPaths[0], name, exts));
      if direct.Some? then direct
      else
        var partial := FirstExisting(fs, Partials(loadPaths[0], name, exts));
        if partial.Some? then partial
        else Search(fs, loadPaths[1..], name, exts)
  }

  /** The whole candidate list in search order: the reference definition the search
      is measured against. */
  function AllCandidates(loadPaths: seq<Path>, name: string, exts: seq<string>): seq<Path> {
    if loadPaths == [] then []
    else Directs(loadPaths[0], name, exts) + Partials(loadPaths[0], name, exts)
         + AllCandidates(loadPaths[1..], name, exts)
  }

  /** `resolveFilePath(reference, loadPaths, exts, importer)`. */
  function ResolveFilePath(fs: Fs, reference: string, loadPaths: seq<Path>, exts: seq<string>,
                           importer: Path): (r: Option<Path>)
    ensures r.Some? ==> r.value in fs
  {
    var order := ExtensionOrder(reference, exts, importer);
    Search(fs, loadPaths, TrimExtension(reference, order), order)
  }

  // ---------------------------------------------------------------- properties

  /** Searching a concatenation: the first list wins when anything in it exists. */
  lemma {:induction false} FirstExistingAppend(fs: Fs, a: seq<Path>, b: seq<Path>)
    ensures FirstExisting(fs, a + b) ==
            if FirstExisting(fs, a).Some? then FirstExisting(fs, a) else FirstExisting(fs, b)
    decreases |a|
  {
    if a != [] {
      assert (a + b)[0] == a[0];
      assert (a + b)[1..] == a[1..] + b;
      FirstExistingAppend(fs, a[1..], b);
    } else {
      assert a + b == b;
    }
  }

  /** The nested loops return exactly the first existing path of the candidate list. */
  lemma {:induction false} SearchIsFirstExisting(fs: Fs, loadPaths: seq<Path>, name: string, exts: seq<string>)
    ensures Search(fs, loadPaths, name, exts) == FirstExisting(fs, AllCandidates(loadPaths, name, exts))
    decreases |loadPaths|
  {
    if loadPaths != [] {
      var d := Directs(loadPaths[0], name, exts);
      var p := Partials(loadPaths[0], name, exts);
      var rest := AllCandidates(loadPaths[1..], name, exts);
      SearchIsFirstExisting(fs, loadPaths[1..], name, exts);
      FirstExistingAppend(fs, d + p, rest);
      FirstExistingAppend(fs, d, p);
    }
  }

  /** The resolver's result is `false` exactly when no candidate exists, and otherwise
      the first existing candidate (which may be a directory). */
  lemma ResolveIsFirstExistingCandidate(fs: Fs, reference: string, loadPaths: seq<Path>,
                                        exts: seq<string>, importer: Path)
    ensures var order := ExtensionOrder(reference, exts, importer);
            var cs := AllCandidates(loadPaths, TrimExtension(reference, order), order);
            var r := ResolveFilePath(fs, reference, loadPaths, exts, importer);
            && (r.None? <==> forall c :: c in cs ==> c !in fs)
            && (r.Some? ==> r.value in cs && forall c :: c in cs[..IndexOf(cs, r.value)] ==> c !in fs)
  {
    var order := ExtensionOrder(reference, exts, importer);
    SearchIsFirstExisting(fs, loadPaths, TrimExtension(reference, order), order);
  }

  /** Load-path order outranks extension order and the direct/partial split: a hit
      anywhere under an earlier load path beats everything under a later one. */
  lemma {:induction false} LoadPathPrecedence(fs: Fs, a: seq<Path>, b: seq<Path>, name: string, exts: seq<string>)
    ensures Search(fs, a + b, name, exts) ==
            if Search(fs, a, name, exts).Some? then Search(fs, a, name, exts) else Search(fs, b, name, exts)
    decreases |a|
  {
    if a == [] {
      assert a + b == b;
    } else {
      assert (a + b)[0] == a[0];
      assert (a + b)[1..] == a[1..] + b;
      LoadPathPrecedence(fs, a[1..], b, name, exts);
    }
  }

  /** Within one load path every direct `dir/name.ext` is tried before any partial
      `dir/_name.ext`. */
  lemma DirectBeforePartial(fs: Fs, dir: Path, name: string, exts: seq<string>)
    ensures Search(fs, [dir], name, exts) ==
            FirstExisting(fs, Directs(dir, name, exts) + Partials(dir, name, exts))
  {
    FirstExistingAppend(fs, Directs(dir, name, exts), Partials(dir, name, exts));
    assert [dir][1..] == [];
  }

  /** A partial under an earlier load path beats a direct hit under a later one. */
  lemma EarlierPartialBeatsLaterDirect(fs: Fs, first: Path, later: seq<Path>, name: string,
                                       exts: seq<string>, j: nat)
    requires j < |exts|
    requires PartialOf(Candidate(first, name, exts[j])) in fs
    ensures var r := Search(fs, [first] + later, name, exts);
            r.Some? && r.value in Directs(first, name, exts) + Partials(first, name, exts)
  {
    LoadPathPrecedence(fs, [first], later, name, exts);
    DirectBeforePartial(fs, first, name, exts);
    var p := Partials(first, name, exts);
    assert p[j] in fs;
    assert p[j] in Directs(first, name, exts) + p;
  }

  /** Extension preference: a reference whose own extension is not configured,
      imported from a file whose extension is configured after position 0, resolves
      to the importer's extension under the first load path whenever that file
      exists, whatever else exists there. */
  lemma PreferImporterExtension(fs: Fs, reference: string, dir: Path, more: seq<Path>,
                                exts: seq<string>, importer: Path)
    requires Extension(reference) !in exts
    requires Preferred(exts, importer) > 0
    requires Candidate(dir, TrimExtension(reference, ExtensionOrder(reference, exts, importer)),
                       Extension(importer)) in fs
    ensures ResolveFilePath(fs, reference, [dir] + more, exts, importer) ==
            Some(Candidate(dir, TrimExtension(reference, ExtensionOrder(reference, exts, importer)),
                           Extension(importer)))
  {
    var order := ExtensionOrder(reference, exts, importer);
    var name := TrimExtension(reference, order);
    LoadPathPrecedence(fs, [dir], more, name, order);
    var d := Directs(dir, name, order);
    assert d[0] == Candidate(dir, name, Extension(importer));
    assert d == [d[0]] + d[1..];
  }

  /** Partial-file fallback: with no direct candidate under the only load path, an
      existing `_name.ext` is found. */
  lemma PartialFallback(fs: Fs, dir: Path, name: string, exts: seq<string>)
    requires forall e :: e in exts ==> Candidate(dir, name, e) !in fs
    requires exists e :: e in exts && PartialOf(Candidate(dir, name, e)) in fs
    ensures var r := Search(fs, [dir], name, exts);
            r.Some? && r.value in Partials(dir, name, exts)
  {
    NoDirectHit(fs, dir, name, exts);
    SomePartialHit(fs, dir, name, exts);
    assert [dir][0] == dir;
  }

  lemma NoDirectHit(fs: Fs, dir: Path, name: string, exts: seq<string>)
    requires forall e :: e in exts ==> Candidate(dir, name, e) !in fs
    ensures FirstExisting(fs, Directs(dir, name, exts)).None?
  {
    var ds := Directs(dir, name, exts);
    forall c | c in ds ensures c !in fs {
      var t :| 0 <= t < |ds| && ds[t] == c;
      assert exts[t] in exts;
    }
  }

  lemma SomePartialHit(fs: Fs, dir: Path, name: string, exts: seq<string>)
    requires exists e :: e in exts && PartialOf(Candidate(dir, name, e)) in fs
    ensures FirstExisting(fs, Partials(dir, name, exts)).Some?
  {
    var e :| e in exts && PartialOf(Candidate(dir, name, e)) in fs;
    var j :| 0 <= j < |exts| && exts[j] == e;
    assert Partials(dir, name, exts)[j] in fs;
  }

  /** The longest matching suffix goes, and the dot of the pattern is any character
      ("foojs" trims to "fo"). */
  lemma TrimExamples()
    ensures TrimExtension("x.b.js", ["js", "b.js"]) == "x"
    ensures TrimExtension("foojs", ["js"]) == "fo"
  {
    TrimmableWith("x.b.js", 1, ["js", "b.js"], "b.js");
    TrimmableWith("foojs", 2, ["js"], "js");
  }

  /** Case is ignored, and a name without a configured extension is kept whole. */
  lemma TrimCaseExamples()
    ensures TrimExtension("foo.JS", ["js"]) == "foo"
    ensures TrimExtension("foo", ["js"]) == "foo"
  {
    TrimmableWith("foo.JS", 3, ["js"], "js");
  }

  lemma TrimmableWith(name: string, i: int, exts: seq<string>, e: string)
    requires 0 <= i < |name| && !IsLineTerminator(name[i])
    requires e in Alternatives(exts) && SameIgnoringCase(name[i + 1..], e)
    ensures TrimmableAt(name, i, exts)
  {
  }
}

=== FILE: traversal.dfy ===
/** `visit`, `visitAncestors` and `visitDescendants` of lib/graph.js: a depth-first,
    pre-order walk over the index that shares one visited list across the whole walk
    and reports every path when it is first pushed onto that list. The callback is
    modelled by its trace: the list of reported paths, in order. */
module Traversal {
  import opened Common
  import opened Paths
  import opened DependencyGraph

  /** `visitAncestors` follows `importedBy`, `visitDescendants` follows `imports`. */
  datatype Direction = Ancestors | Descendants

  /** The edge callback (lines 129-133 and 142-146): the node's list in the chosen
      direction, and `[]` for a path the index does not hold. */
  function Neighbours(g: Index, d: Direction, p: Path): (r: seq<Path>)
    ensures p !in g ==> r == []
    ensures p in g && d == Ancestors ==> r == g[p].importedBy
    ensures p in g && d == Descendants ==> r == g[p].imports
  {
    if p !in g then []
    else if d == Ancestors then g[p].importedBy
    else g[p].imports
  }

  /** Every path some edge points to: a bound on what the walk can push. */
  ghost function Targets(g: Index, d: Direction): set<Path> {
    set p, q | p in g && q in Neighbours(g, d, p) :: q
  }

  ghost function Unvisited(g: Index, d: Direction, vis: seq<Path>): nat {
    |Targets(g, d) - set x | x in vis|
  }

  /** Each path reported at or after position `from` is a neighbour of `p` or of a path
      reported before it (from `from` on): the walk is pre-order. */
  ghost predicate Preceded(g: Index, d: Direction, p: Path, r: seq<Path>, from: nat) {
    forall k :: from <= k < |r| ==> PrecededAt(g, d, p, r, from, k)
  }

  ghost predicate PrecededAt(g: Index, d: Direction, p: Path, r: seq<Path>, from: nat, k: nat)
    requires k < |r|
  {
    r[k] in Neighbours(g, d, p) || exists j :: from <= j < k && r[k] in Neighbours(g, d, r[j])
  }

  /** The neighbours of every path reported from position `from` on are in `r`. */
  ghost predicate ClosedFrom(g: Index, d: Direction, r: seq<Path>, from: nat) {
    forall k, q {:trigger q in Neighbours(g, d, r[k])} :: from <= k < |r| && q in Neighbours(g, d, r[k]) ==> q in r
  }

  // ---------------------------------------------------------------- the depth-first rule

  /** The first path of `es` not in `seen`. */
  function FirstNotIn(es: seq<Path>, seen: seq<Path>): (r: Option<Path>)
    ensures r.Some? ==> r.value in es && r.value !in seen
  {
    if es == [] then None
    else if es[0] !in seen then Some(es[0])
    else FirstNotIn(es[1..], seen)
  }

  /** Nothing is left once every path of `es` was seen. */
  lemma {:induction false} AllSeen(es: seq<Path>, seen: seq<Path>)
    requires forall q :: q in es ==> q in seen
    ensures FirstNotIn(es, seen).None?
  {
    if es != [] {
      assert es[0] in seen;
      AllSeen(es[1..], seen);
    }
  }

  /** The last of `s[lo..hi]` that still has a neighbour outside `s`. */
  function Recent(g: Index, d: Direction, s: seq<Path>, lo: nat, hi: nat): (r: Option<Path>)
    requires hi <= |s|
    ensures r.Some? ==> FirstNotIn(Neighbours(g, d, r.value), s).Some?
    decreases hi
  {
    if hi <= lo then None
    else if FirstNotIn(Neighbours(g, d, s[hi - 1]), s).Some? then Some(s[hi - 1])
    else Recent(g, d, s, lo, hi - 1)
  }

  /** What a depth-first walk from `p` reports next once `s` is the visited list, the
      walk's own part starting at `from`: the first unvisited neighbour of the most
      recently reported path that still has one, or of `p` when none has; `None` when
      the walk is over. */
  function NextReported(g: Index, d: Direction, p: Path, s: seq<Path>, from: nat): Option<Path> {
    var x := if from <= |s| && Recent(g, d, s, from, |s|).Some? then Recent(g, d, s, from, |s|).value else p;
    FirstNotIn(Neighbours(g, d, x), s)
  }

  /** `r` past position `from` is exactly what the depth-first rule reports, in order,
      and ends where the rule has nothing more to report. */
  ghost predicate DepthFirst(g: Index, d: Direction, p: Path, r: seq<Path>, from: nat) {
    from <= |r| && ReportsFrom(g, d, p, r, from, from)
  }

  /** The rule holds at every position from `m` to the end of `r`. */
  ghost predicate ReportsFrom(g: Index, d: Direction, p: Path, r: seq<Path>, from: nat, m: nat)
    requires m <= |r|
    decreases |r| - m
  {
    ReportsAt(g, d, p, r, from, m) && (m < |r| ==> ReportsFrom(g, d, p, r, from, m + 1))
  }

  /** After the first `m` paths of `r`, the rule reports `r[m]`, or nothing at the end. */
  ghost predicate ReportsAt(g: Index, d: Direction, p: Path, r: seq<Path>, from: nat, m: nat)
    requires m <= |r|
  {
    NextReported(g, d, p, r[..m], from) == if m < |r| then Some(r[m]) else None
  }

  /** A list follows the rule exactly when the rule holds at each of its positions. */
  lemma DepthFirstEach(g: Index, d: Direction, p: Path, r: seq<Path>, from: nat)
    requires from <= |r|
    ensures DepthFirst(g, d, p, r, from) <==> forall m :: from <= m <= |r| ==> ReportsAt(g, d, p, r, from, m)
  {
    if forall m :: from <= m <= |r| ==> ReportsAt(g, d, p, r, from, m) {
      ReportsFromAll(g, d, p, r, from, from);
    }
    if DepthFirst(g, d, p, r, from) {
      forall m | from <= m <= |r| ensures ReportsAt(g, d, p, r, from, m) {
        ReportsFromAt(g, d, p, r, from, from, m);
      }
    }
  }

  lemma {:induction false} ReportsFromAll(g: Index, d: Direction, p: Path, r: seq<Path>, from: nat, m: nat)
    requires from <= m <= |r|
    requires forall k :: from <= k <= |r| ==> ReportsAt(g, d, p, r, from, k)
    ensures ReportsFrom(g, d, p, r, from, m)
    decreases |r| - m
  {
    if m < |r| {
      ReportsFromAll(g, d, p, r, from, m + 1);
    }
  }

  lemma {:induction false} ReportsFromAt(g: Index, d: Direction, p: Path, r: seq<Path>, from: nat, m: nat, k: nat)
    requires m <= k <= |r| && ReportsFrom(g, d, p, r, from, m)
    ensures ReportsAt(g, d, p, r, from, k)
    decreases k - m
  {
    if m < k {
      ReportsFromAt(g, d, p, r, from, m + 1, k);
    }
  }

  /** `visit(p, …, visited)` (lines 106-122): returns the visited list afterwards; the
      paths it reported are the part past the original `vis`. */
  function VisitFrom(g: Index, d: Direction, p: Path, vis: seq<Path>): (r: seq<Path>)
    requires NoDup(vis)
    ensures vis <= r && NoDup(r)
    ensures forall q :: q in Neighbours(g, d, p) ==> q in r
    ensures ClosedFrom(g, d, r, |vis|)
    ensures Preceded(g, d, p, r, |vis|)
    ensures p !in g ==> r == vis
    ensures |Neighbours(g, d, p)| > 0 && Neighbours(g, d, p)[0] !in vis ==>
              |r| > |vis| && r[|vis|] == Neighbours(g, d, p)[0]
    decreases Unvisited(g, d, vis), 1, 0, 0
  {
    VisitEdges(g, d, p, 0, vis)
  }

  /** The loop of lines 115-121 from edge `i` on. */
  function VisitEdges(g: Index, d: Direction, p: Path, i: nat, vis: seq<Path>): (r: seq<Path>)
    requires NoDup(vis) && i <= |Neighbours(g, d, p)|
    ensures vis <= r && NoDup(r)
    ensures forall j :: i <= j < |Neighbours(g, d, p)| ==> Neighbours(g, d, p)[j] in r
    ensures ClosedFrom(g, d, r, |vis|)
    ensures Preceded(g, d, p, r, |vis|)
    ensures i == |Neighbours(g, d, p)| ==> r == vis
    ensures i < |Neighbours(g, d, p)| && Neighbours(g, d, p)[i] !in vis ==>
              |r| > |vis| && r[|vis|] == Neighbours(g, d, p)[i]
    decreases Unvisited(g, d, vis), 0, |Neighbours(g, d, p)| - i, 1
  {
    var edges := Neighbours(g, d, p);
    if i == |edges| then vis
    else if edges[i] in vis then
      var r := VisitEdges(g, d, p, i + 1, vis);
      InPrefix(vis, r, edges[i]);
      CoverStep(edges, i, r);
      r
    else
      VisitNew(g, d, p, i, vis)
  }

  /** Lines 117-119: an edge not visited yet is pushed, reported, and visited in turn,
      and the loop goes on with the grown list. */
  function VisitNew(g: Index, d: Direction, p: Path, i: nat, vis: seq<Path>): (r: seq<Path>)
    requires NoDup(vis) && i < |Neighbours(g, d, p)| && Neighbours(g, d, p)[i] !in vis
    ensures vis + [Neighbours(g, d, p)[i]] <= r && NoDup(r)
    ensures forall j :: i <= j < |Neighbours(g, d, p)| ==> Neighbours(g, d, p)[j] in r
    ensures ClosedFrom(g, d, r, |vis|)
    ensures Preceded(g, d, p, r, |vis|)
    decreases Unvisited(g, d, vis), 0, |Neighbours(g, d, p)| - i, 0
  {
    var edges := Neighbours(g, d, p);
    var e := edges[i];
    UnvisitedShrinks(g, d, p, vis, e, vis + [e]);
    assert |vis + [e]| == |vis| + 1;
    var v1 := VisitFrom(g, d, e, vis + [e]);
    UnvisitedShrinks(g, d, p, vis, e, v1);
    var r := VisitEdges(g, d, p, i + 1, v1);
    InPrefix(vis + [e], r, e);
    CoverStep(edges, i, r);
    StepFacts(g, d, p, vis, e, v1, r);
    r
  }

  /** `VisitFrom` follows the depth-first rule from `p`. */
  lemma VisitFromDepthFirst(g: Index, d: Direction, p: Path, vis: seq<Path>)
    requires NoDup(vis)
    ensures DepthFirst(g, d, p, VisitFrom(g, d, p, vis), |vis|)
    decreases Unvisited(g, d, vis), 1, 0, 0
  {
    VisitEdgesDepthFirst(g, d, p, 0, vis);
  }

  /** The loop from edge `i` on follows the depth-first rule from `p`, once the edges
      before `i` have all been seen. */
  lemma VisitEdgesDepthFirst(g: Index, d: Direction, p: Path, i: nat, vis: seq<Path>)
    requires NoDup(vis) && i <= |Neighbours(g, d, p)|
    requires forall h :: 0 <= h < i ==> Neighbours(g, d, p)[h] in vis
    ensures DepthFirst(g, d, p, VisitEdges(g, d, p, i, vis), |vis|)
    decreases Unvisited(g, d, vis), 0, |Neighbours(g, d, p)| - i, 1
  {
    var edges := Neighbours(g, d, p);
    if i == |edges| {
      NothingLeft(g, d, p, vis);
    } else if edges[i] in vis {
      VisitEdgesDepthFirst(g, d, p, i + 1, vis);
    } else {
      VisitNewDepthFirst(g, d, p, i, vis);
    }
  }

  lemma VisitNewDepthFirst(g: Index, d: Direction, p: Path, i: nat, vis: seq<Path>)
    requires NoDup(vis) && i < |Neighbours(g, d, p)| && Neighbours(g, d, p)[i] !in vis
    requires forall h :: 0 <= h < i ==> Neighbours(g, d, p)[h] in vis
    ensures DepthFirst(g, d, p, VisitNew(g, d, p, i, vis), |vis|)
    decreases Unvisited(g, d, vis), 0, |Neighbours(g, d, p)| - i, 0
  {
    var e := Neighbours(g, d, p)[i];
    UnvisitedShrinks(g, d, p, vis, e, vis + [e]);
    VisitFromDepthFirst(g, d, e, vis + [e]);
    RestDepthFirst(g, d, p, i, vis, e, VisitFrom(g, d, e, vis + [e]));
  }

  /** Once the visit of the new edge `e` follows the rule, so does the whole step. */
  lemma RestDepthFirst(g: Index, d: Direction, p: Path, i: nat, vis: seq<Path>, e: Path, v1: seq<Path>)
    requires NoDup(vis) && i < |Neighbours(g, d, p)| && e == Neighbours(g, d, p)[i] && e !in vis
    requires forall h :: 0 <= h < i ==> Neighbours(g, d, p)[h] in vis
    requires v1 == VisitFrom(g, d, e, vis + [e])
    requires DepthFirst(g, d, e, v1, |vis + [e]|)
    ensures DepthFirst(g, d, p, VisitNew(g, d, p, i, vis), |vis|)
    decreases Unvisited(g, d, vis), 0, |Neighbours(g, d, p)| - i - 1, 2
  {
    var edges := Neighbours(g, d, p);
    UnvisitedShrinks(g, d, p, vis, e, v1);
    EarlierEdgesSeen(edges, i, vis, v1);
    VisitEdgesDepthFirst(g, d, p, i + 1, v1);
    assert |vis + [e]| == |vis| + 1;
    FirstNotInAt(edges, vis, i);
    DepthFirstStep(g, d, p, vis, e, v1, VisitEdges(g, d, p, i + 1, v1));
  }

  /** The edges before `i` were seen before, and edge `i` was pushed. */
  lemma EarlierEdgesSeen(edges: seq<Path>, i: nat, vis: seq<Path>, v1: seq<Path>)
    requires i < |edges| && vis + [edges[i]] <= v1
    requires forall h :: 0 <= h < i ==> edges[h] in vis
    ensures forall h :: 0 <= h < i + 1 ==> edges[h] in v1
  {
    forall h | 0 <= h < i + 1 ensures edges[h] in v1 {
      if h < i { InPrefix(vis, v1, edges[h]); } else { assert v1[|vis|] == edges[i]; }
    }
  }

  lemma {:induction false} FirstNotInAt(es: seq<Path>, seen: seq<Path>, i: nat)
    requires i < |es| && es[i] !in seen && forall h :: 0 <= h < i ==> es[h] in seen
    ensures FirstNotIn(es, seen) == Some(es[i])
    decreases i
  {
    if i > 0 {
      assert es[0] in seen;
      FirstNotInAt(es[1..], seen, i - 1);
    }
  }

  /** Once every edge of `p` was seen, the rule reports nothing from an empty part. */
  lemma NothingLeft(g: Index, d: Direction, p: Path, vis: seq<Path>)
    requires forall h :: 0 <= h < |Neighbours(g, d, p)| ==> Neighbours(g, d, p)[h] in vis
    ensures DepthFirst(g, d, p, vis, |vis|)
  {
    forall q | q in Neighbours(g, d, p) ensures q in vis {
      var h :| 0 <= h < |Neighbours(g, d, p)| && Neighbours(g, d, p)[h] == q;
    }
    AllSeen(Neighbours(g, d, p), vis);
    assert vis[..|vis|] == vis;
    assert Recent(g, d, vis, |vis|, |vis|).None?;
    assert ReportsAt(g, d, p, vis, |vis|, |vis|);
  }

  lemma CoverStep(edges: seq<Path>, i: nat, r: seq<Path>)
    requires i < |edges| && edges[i] in r
    requires forall j :: i + 1 <= j < |edges| ==> edges[j] in r
    ensures forall j :: i <= j < |edges| ==> edges[j] in r
  {
  }

  /** Pushing a target not yet visited, and whatever the recursive visit adds, leaves
      strictly fewer unvisited targets. */
  lemma UnvisitedShrinks(g: Index, d: Direction, p: Path, vis: seq<Path>, e: Path, v1: seq<Path>)
    requires p in g && e in Neighbours(g, d, p) && e !in vis && vis + [e] <= v1
    ensures Unvisited(g, d, v1) < Unvisited(g, d, vis)
  {
    var a := set x | x in v1;
    var b := set x | x in vis;
    assert e in Targets(g, d);
    assert forall x :: x in b ==> x in a by {
      forall x | x in b ensures x in a {
        var k :| 0 <= k < |vis| && vis[k] == x;
        assert v1[k] == x;
      }
    }
    assert e in a by { assert v1[|vis|] == e; }
    ProperSubsetCard(Targets(g, d) - a, Targets(g, d) - b);
  }

  /** Gluing the recursive visit of `e` and the rest of the loop. */
  lemma StepFacts(g: Index, d: Direction, p: Path, vis: seq<Path>, e: Path, v1: seq<Path>, r: seq<Path>)
    requires e in Neighbours(g, d, p) && vis + [e] <= v1 && v1 <= r
    requires forall q :: q in Neighbours(g, d, e) ==> q in v1
    requires ClosedFrom(g, d, v1, |vis| + 1) && Preceded(g, d, e, v1, |vis| + 1)
    requires ClosedFrom(g, d, r, |v1|) && Preceded(g, d, p, r, |v1|)
    ensures ClosedFrom(g, d, r, |vis|) && Preceded(g, d, p, r, |vis|)
  {
    assert v1[|vis|] == e;
    forall k, q | |vis| <= k < |r| && q in Neighbours(g, d, r[k]) ensures q in r {
      if k < |v1| {
        assert r[k] == v1[k];
        assert q in v1;
        var t :| 0 <= t < |v1| && v1[t] == q;
        assert r[t] == q;
      }
    }
    forall k | |vis| <= k < |r| ensures PrecededAt(g, d, p, r, |vis|, k) {
      if |vis| < k < |v1| {
        assert PrecededAt(g, d, e, v1, |vis| + 1, k);
        assert r[k] == v1[k];
        if v1[k] in Neighbours(g, d, e) {
          assert r[|vis|] == e;
        } else {
          var j :| |vis| + 1 <= j < k && v1[k] in Neighbours(g, d, v1[j]);
          assert r[j] == v1[j];
        }
      } else if k >= |v1| && r[k] !in Neighbours(g, d, p) {
        assert PrecededAt(g, d, p, r, |v1|, k);
        var j :| |v1| <= j < k && r[k] in Neighbours(g, d, r[j]);
      }
    }
  }

  /** Gluing the depth-first rule of the recursive visit of `e`, the first unseen
      edge of `p`, to that of the rest of the loop. */
  lemma DepthFirstStep(g: Index, d: Direction, p: Path, vis: seq<Path>, e: Path, v1: seq<Path>, r: seq<Path>)
    requires FirstNotIn(Neighbours(g, d, p), vis) == Some(e)
    requires vis + [e] <= v1 && v1 <= r
    requires forall q :: q in Neighbours(g, d, e) ==> q in v1
    requires ClosedFrom(g, d, v1, |vis| + 1)
    requires DepthFirst(g, d, e, v1, |vis| + 1) && DepthFirst(g, d, p, r, |v1|)
    ensures DepthFirst(g, d, p, r, |vis|)
  {
    forall m | |vis| <= m <= |r| ensures ReportsAt(g, d, p, r, |vis|, m) {
      StepAt(g, d, p, vis, e, v1, r, m);
    }
    DepthFirstEach(g, d, p, r, |vis|);
  }

  lemma StepAt(g: Index, d: Direction, p: Path, vis: seq<Path>, e: Path, v1: seq<Path>, r: seq<Path>, m: nat)
    requires FirstNotIn(Neighbours(g, d, p), vis) == Some(e)
    requires vis + [e] <= v1 && v1 <= r && |vis| <= m <= |r|
    requires forall q :: q in Neighbours(g, d, e) ==> q in v1
    requires ClosedFrom(g, d, v1, |vis| + 1)
    requires DepthFirst(g, d, e, v1, |vis| + 1) && DepthFirst(g, d, p, r, |v1|)
    ensures ReportsAt(g, d, p, r, |vis|, m)
  {
    if m == |vis| {
      ChildFirst(g, d, p, vis, e, r);
    } else if m <= |v1| {
      InsideChild(g, d, p, vis, e, v1, r, m);
    } else {
      AfterChild(g, d, p, vis, e, v1, r, m);
    }
  }

  /** The first unseen edge of `p` is what the step reports first. */
  lemma ChildFirst(g: Index, d: Direction, p: Path, vis: seq<Path>, e: Path, r: seq<Path>)
    requires FirstNotIn(Neighbours(g, d, p), vis) == Some(e)
    requires vis + [e] <= r
    ensures ReportsAt(g, d, p, r, |vis|, |vis|)
  {
    assert r[..|vis|] == vis;
    assert r[|vis|] == e;
  }

  /** While the visit of `e` runs, `e` stands in for `p` until it has nothing left. */
  lemma InsideChild(g: Index, d: Direction, p: Path, vis: seq<Path>, e: Path, v1: seq<Path>, r: seq<Path>, m: nat)
    requires vis + [e] <= v1 && v1 <= r && |vis| < m <= |v1|
    requires DepthFirst(g, d, e, v1, |vis| + 1) && DepthFirst(g, d, p, r, |v1|)
    ensures ReportsAt(g, d, p, r, |vis|, m)
  {
    var s := r[..m];
    assert s == v1[..m] && s[|vis|] == e;
    ReportsFromAt(g, d, e, v1, |vis| + 1, |vis| + 1, m);
    NextShift(g, d, p, e, s, |vis|);
    if NextReported(g, d, e, s, |vis| + 1).None? {
      assert m == |v1|;
      ChildDone(g, d, p, v1, r);
    } else if m < |v1| {
      assert r[m] == v1[m];
    }
  }

  /** Reporting from `p` with `e` first in the walk's part is reporting from `e` until
      `e`'s part has nothing left; then it is reporting from `p` again. */
  lemma NextShift(g: Index, d: Direction, p: Path, e: Path, s: seq<Path>, lo: nat)
    requires lo < |s| && s[lo] == e
    ensures NextReported(g, d, e, s, lo + 1).Some? ==> NextReported(g, d, p, s, lo) == NextReported(g, d, e, s, lo + 1)
    ensures NextReported(g, d, e, s, lo + 1).None? ==> NextReported(g, d, p, s, lo) == FirstNotIn(Neighbours(g, d, p), s)
  {
    RecentSplit(g, d, s, lo, |s|);
  }

  /** Right after the visit of `e`, the rule from `p` reports what the loop does. */
  lemma ChildDone(g: Index, d: Direction, p: Path, v1: seq<Path>, r: seq<Path>)
    requires v1 <= r && DepthFirst(g, d, p, r, |v1|)
    ensures FirstNotIn(Neighbours(g, d, p), v1) == if |v1| < |r| then Some(r[|v1|]) else None
  {
    assert r[..|v1|] == v1;
    assert Recent(g, d, v1, |v1|, |v1|).None?;
  }

  /** Once the visit of `e` is over, nothing it reported has an unseen neighbour. */
  lemma AfterChild(g: Index, d: Direction, p: Path, vis: seq<Path>, e: Path, v1: seq<Path>, r: seq<Path>, m: nat)
    requires vis + [e] <= v1 && v1 <= r && |v1| < m <= |r|
    requires forall q :: q in Neighbours(g, d, e) ==> q in v1
    requires ClosedFrom(g, d, v1, |vis| + 1)
    requires DepthFirst(g, d, p, r, |v1|)
    ensures ReportsAt(g, d, p, r, |vis|, m)
  {
    ReportsFromAt(g, d, p, r, |v1|, |v1|, m);
    var s := r[..m];
    assert v1 <= s;
    forall j | |vis| <= j < |v1| ensures FirstNotIn(Neighbours(g, d, s[j]), s).None? {
      assert s[j] == v1[j];
      forall q | q in Neighbours(g, d, s[j]) ensures q in s {
        assert q in v1;
        InPrefix(v1, s, q);
      }
      AllSeen(Neighbours(g, d, s[j]), s);
    }
    RecentSkip(g, d, s, |vis|, |v1|, m);
  }

  lemma {:induction false} RecentSplit(g: Index, d: Direction, s: seq<Path>, lo: nat, hi: nat)
    requires lo < hi <= |s|
    ensures Recent(g, d, s, lo, hi) ==
              if Recent(g, d, s, lo + 1, hi).Some? then Recent(g, d, s, lo + 1, hi)
              else if FirstNotIn(Neighbours(g, d, s[lo]), s).Some? then Some(s[lo])
              else None
    decreases hi
  {
    if lo < hi - 1 && FirstNotIn(Neighbours(g, d, s[hi - 1]), s).None? {
      RecentSplit(g, d, s, lo, hi - 1);
    }
  }

  /** Paths with no unseen neighbour never become the most recent one. */
  lemma {:induction false} RecentSkip(g: Index, d: Direction, s: seq<Path>, lo: nat, mid: nat, hi: nat)
    requires lo <= mid <= hi <= |s|
    requires forall j :: lo <= j < mid ==> FirstNotIn(Neighbours(g, d, s[j]), s).None?
    ensures Recent(g, d, s, lo, hi) == Recent(g, d, s, mid, hi)
    decreases mid - lo
  {
    if lo < mid {
      RecentSkip(g, d, s, lo + 1, mid, hi);
      RecentSplit(g, d, s, lo, hi);
    }
  }

  /** `visitAncestors(p, cb)` and `visitDescendants(p, cb)` (lines 128-147): the
      paths reported, in order, starting from an empty visited list. The first one
      reported is the start's first neighbour. */
  function Visit(g: Index, d: Direction, start: Path): (r: seq<Path>)
    ensures NoDup(r)
    ensures start !in g ==> r == []
    ensures |Neighbours(g, d, start)| > 0 ==> |r| > 0 && r[0] == Neighbours(g, d, start)[0]
    ensures DepthFirst(g, d, start, r, 0)
  {
    VisitFromDepthFirst(g, d, start, []);
    VisitFrom(g, d, start, [])
  }

  /** A walk of at least one edge from `start`: each path is a neighbour of the one
      before it, the first a neighbour of `start`. */
  ghost predicate IsWalk(g: Index, d: Direction, start: Path, w: seq<Path>) {
    && |w| > 0
    && w[0] in Neighbours(g, d, start)
    && forall i :: 0 < i < |w| ==> w[i] in Neighbours(g, d, w[i - 1])
  }

  /** Every path at the end of a walk from `start` is reported. */
  lemma {:induction false} WalkEndReported(g: Index, d: Direction, start: Path, w: seq<Path>)
    requires IsWalk(g, d, start, w)
    ensures w[|w| - 1] in Visit(g, d, start)
    decreases |w|
  {
    var r := Visit(g, d, start);
    assert r == VisitFrom(g, d, start, []);
    if |w| > 1 {
      var w' := w[..|w| - 1];
      assert IsWalk(g, d, start, w') by {
        forall i | 0 < i < |w'| ensures w'[i] in Neighbours(g, d, w'[i - 1]) {
          assert w'[i] == w[i] && w'[i - 1] == w[i - 1];
        }
      }
      WalkEndReported(g, d, start, w');
      var k :| 0 <= k < |r| && r[k] == w[|w| - 2];
      assert w[|w| - 1] in Neighbours(g, d, r[k]);
    }
  }

  /** Every reported path ends a walk from `start`; the walk is built backwards through
      the path that preceded it. */
  lemma {:induction false} ReportedHasWalk(g: Index, d: Direction, start: Path, k: nat) returns (w: seq<Path>)
    requires k < |Visit(g, d, start)|
    ensures IsWalk(g, d, start, w) && w[|w| - 1] == Visit(g, d, start)[k]
    decreases k
  {
    var r := Visit(g, d, start);
    assert r == VisitFrom(g, d, start, []);
    assert PrecededAt(g, d, start, r, 0, k);
    if r[k] in Neighbours(g, d, start) {
      w := [r[k]];
    } else {
      var j :| 0 <= j < k && r[k] in Neighbours(g, d, r[j]);
      var u := ReportedHasWalk(g, d, start, j);
      w := u + [r[k]];
      assert forall i :: 0 <= i < |u| ==> w[i] == u[i];
    }
  }

  /** The reported set is exactly the paths reachable from `start` by at least one
      edge; so `start` itself is reported only when it lies on a cycle. */
  lemma VisitIsReachable(g: Index, d: Direction, start: Path, q: Path)
    ensures q in Visit(g, d, start) <==> exists w :: IsWalk(g, d, start, w) && w[|w| - 1] == q
  {
    if q in Visit(g, d, start) {
      var k :| 0 <= k < |Visit(g, d, start)| && Visit(g, d, start)[k] == q;
      var w := ReportedHasWalk(g, d, start, k);
    }
    if exists w :: IsWalk(g, d, start, w) && w[|w| - 1] == q {
      var w :| IsWalk(g, d, start, w) && w[|w| - 1] == q;
      WalkEndReported(g, d, start, w);
    }
  }

  /** Two lists that agree up to `from` and both follow the depth-first rule agree up
      to any common length. */
  lemma {:induction false} DepthFirstPrefix(g: Index, d: Direction, p: Path, r1: seq<Path>, r2: seq<Path>, from: nat, m: nat)
    requires DepthFirst(g, d, p, r1, from) && DepthFirst(g, d, p, r2, from)
    requires r1[..from] == r2[..from]
    requires from <= m <= |r1| && m <= |r2|
    ensures r1[..m] == r2[..m]
    decreases m
  {
    if m > from {
      var k := m - 1;
      DepthFirstPrefix(g, d, p, r1, r2, from, k);
      ReportsFromAt(g, d, p, r1, from, from, k);
      ReportsFromAt(g, d, p, r2, from, from, k);
      assert r1[..m] == r1[..k] + [r1[k]];
      assert r2[..m] == r2[..k] + [r2[k]];
    }
  }

  /** The depth-first rule leaves no choice: one list follows it. */
  lemma DepthFirstUnique(g: Index, d: Direction, p: Path, r1: seq<Path>, r2: seq<Path>, from: nat)
    requires DepthFirst(g, d, p, r1, from) && DepthFirst(g, d, p, r2, from)
    requires r1[..from] == r2[..from]
    ensures r1 == r2
  {
    var m := if |r1| <= |r2| then |r1| else |r2|;
    DepthFirstPrefix(g, d, p, r1, r2, from, m);
    ReportsFromAt(g, d, p, r1, from, from, m);
    ReportsFromAt(g, d, p, r2, from, from, m);
    assert r1 == r1[..m] && r2 == r2[..m];
  }

  /** The walk's trace is exactly the list the depth-first rule produces from `start`. */
  lemma VisitIsDepthFirst(g: Index, d: Direction, start: Path, r: seq<Path>)
    ensures r == Visit(g, d, start) <==> DepthFirst(g, d, start, r, 0)
  {
    if DepthFirst(g, d, start, r, 0) {
      DepthFirstUnique(g, d, start, r, Visit(g, d, start), 0);
    }
  }

  /** `/s` imports `/a` and `/b`, and `/a` imports `/c`: the walk goes down to `/c`
      before it moves on to `/b`. */
  lemma DepthFirstExample()
    ensures var g := map["/s" := Node(["/a", "/b"], []), "/a" := Node(["/c"], ["/s"]),
                         "/b" := Node([], ["/s"]), "/c" := Node([], ["/a"])];
            Visit(g, Descendants, "/s") == ["/a", "/c", "/b"]
  {
    var g := map["/s" := Node(["/a", "/b"], []), "/a" := Node(["/c"], ["/s"]),
                 "/b" := Node([], ["/s"]), "/c" := Node([], ["/a"])];
    var r := ["/a", "/c", "/b"];
    forall m | 0 <= m <= |r| ensures ReportsAt(g, Descendants, "/s", r, 0, m) {
      if m == 0 {
        assert r[..0] == [];
      } else if m == 1 {
        assert r[..1] == ["/a"];
        assert Recent(g, Descendants, r[..1], 0, 1) == Some("/a");
      } else if m == 2 {
        assert r[..2] == ["/a", "/c"];
        assert Recent(g, Descendants, r[..2], 0, 2) == None;
      } else {
        assert r[..3] == r;
        assert Recent(g, Descendants, r, 0, 3) == None;
      }
    }
    DepthFirstEach(g, Descendants, "/s", r, 0);
    VisitIsDepthFirst(g, Descendants, "/s", r);
  }
}
